=== FILE: README.md ===
# SEO Navigator core, modelled in Dafny

SEO Navigator is a React dashboard. A language model analyses websites and
researches keywords, and the results are kept in an entity store with three
record types: Website, SeoIssue and Keyword. The application has no crawler
or scoring algorithm of its own. Its logic is a set of small, total
functions spread over its pages and components. This project models them:

- how a model response becomes stored records, with JavaScript `||` defaults;
- URL normalisation and the trim guards of the two submit forms;
- the manual keyword form and its conversion of rank inputs;
- the aggregates:
  - rounded averages;
  - critical-issue and top-ten counts;
  - counts per category, kept in first-seen order;
  - difficulty bands;
- the score, label, trend and colour tables of the views;
- the category display-name transform of the reports page.

Calls into the language model and the entity store become parameters:

- a `Completion` is either a normal value or a throw;
- `failAt` is the position of the first write in a loop that throws;
- `now` is the timestamp an analysis records.

A request is modelled by the state it settles in, not by how its steps
interleave.

JavaScript semantics are written out in module `Js`:

- A property is a `Field`: `Undefined`, `Null` or `Present`.
- `x || d` treats 0, `""`, null and undefined as missing.
- `x <= 10` converts null to 0, so a null rank counts as top ten. An undefined rank compares false.
- `Math.round(s / n)` is the nearest integer, with halves rounding up.
- `String(x)` gives the object key: `"undefined"` for a missing value and `"null"` for null.
- Object entries keep insertion order.
- `trim` uses the ECMAScript whitespace set.
- `parseInt` reads decimal digits after optional whitespace and a sign.

One module per source file:

- `Analysis` and `AnalysisForm`
- `Keywords` and `KeywordForm`
- `Dashboard`
- `Reports`
- `KeywordInsights`
- `IssuesSummary`
- `ScoreCard`
- `RecentAnalyses`
- `KeywordPerformance` and `KeywordTable`
- `StatsOverview`

Shared modules:

- `Js`: the JavaScript semantics above.
- `Lists`: `filter`, `slice`, sums, rounded mean.
- `Tally`: counting with an object.
- `Store`: sequential writes.
- `Entities`: the three record types.
- `Metrics`: aggregates used by several views.
- `KeywordCells`: the trend icon and rank text of both keyword tables.
- `Consistency`: lemmas that relate several views.

Three facts about the code that are easy to misread:

- **Top-ten count.** A keyword with a null `current_rank` counts as top ten,
  because `null <= 10` is true in JavaScript. Research creates every keyword
  with a null rank, so each researched keyword counts as top ten.
  `Consistency.ResearchedKeywordsCountAsTopTen` states this.
- **Average score range.** The average SEO score is not clamped. It lies in
  0-100 only when every stored score does, so `Metrics.AverageSeoScoreInRange`
  takes that as its precondition.
- **Failed list reads.** A failed read keeps whatever lists the page already
  had. Before the first load settles, those lists are empty.

## Model

| member | source | states |
|---|---|---|
| Js.NumOr | src/pages/Analysis.jsx:102-105 | `x \|\| d` on a number: the stored value when it is present and not 0; the default whenever it is missing, null or 0; with default 0 a present 0 and a missing value agree |
| Js.StrOr | src/pages/Analysis.jsx:100-101 | `x \|\| d` on a string: the stored value when it is present and non-empty; the default whenever it is missing, null or empty; a non-empty default gives a non-empty result |
| Js.RoundDiv | src/pages/Dashboard.jsx:51 | `Math.round(s / n)` for integers: the result r satisfies n(2r-1) <= 2s < n(2r+1) |
| Js.RoundDivUnique | src/pages/Dashboard.jsx:51 | only one integer satisfies that rounding bracket |
| Js.RoundDivBetween | src/pages/Dashboard.jsx:50-52 | a rounded mean of values between lo and hi lies between lo and hi |
| Js.TrimStart | src/components/analysis/AnalysisForm.jsx:12 | removes exactly the leading whitespace: the result is a suffix that is empty or starts with non-whitespace, and everything removed is whitespace |
| Js.TrimEnd | src/components/analysis/AnalysisForm.jsx:12 | removes exactly the trailing whitespace: the result is a prefix that is empty or ends with non-whitespace |
| Js.Trim | src/components/analysis/AnalysisForm.jsx:12-13 | the result is a contiguous piece of the input, with only whitespace around it and no whitespace at either end; it is empty iff the input is all whitespace |
| Js.TrimIdempotent | src/components/analysis/AnalysisForm.jsx:13 | trimming a trimmed string changes nothing |
| Js.Split | src/components/analysis/ScoreCard.jsx:23-24 | `split` with a one-character separator yields at least one piece and no piece contains the separator |
| Js.SplitJoin | src/components/analysis/ScoreCard.jsx:7-12 | splitting a space-joined list of space-free tokens gives the tokens back |
| Js.NatToString | src/components/dashboard/KeywordPerformance.jsx:59 | a number renders as a non-empty string of decimal digits with no leading zero: a leading `0` only in `"0"` itself |
| Js.IntToString | src/components/keywords/KeywordTable.jsx:63 | a rendered integer starts with a digit or a minus sign |
| Js.ParseIntOfIntToString | src/components/keywords/KeywordForm.jsx:26-27 | `parseInt` reads back any rendered integer, even when non-digits follow it |
| Js.ParseInt | src/components/keywords/KeywordForm.jsx:26-27 | `parseInt` in base 10: a blank string is NaN, a number read needs a digit in the text, and a negative one a minus sign |
| Js.ParseIntOfDigits | src/components/keywords/KeywordForm.jsx:26-27 | a plain run of decimal digits reads as its value |
| Js.ParseIntNoDigits | src/components/keywords/KeywordForm.jsx:26 | `parseInt` of a string with no digits is NaN |
| Lists.Filter | src/components/dashboard/IssuesSummary.jsx:8 | `filter` keeps exactly the elements satisfying the predicate, each as often as in the input |
| Lists.FilterAppend | src/components/dashboard/IssuesSummary.jsx:8 | filtering distributes over concatenation, so kept elements stay in input order |
| Lists.FilterAll | src/components/dashboard/IssuesSummary.jsx:48 | a filter that keeps every element is the identity |
| Lists.FilterDisjointLength | src/components/dashboard/IssuesSummary.jsx:8-9 | two filters with exclusive predicates keep at most the list length between them, and exactly the list length when the predicates are complementary |
| Lists.FilterEmptyIff | src/components/dashboard/IssuesSummary.jsx:47 | a filter keeps nothing iff no element satisfies the predicate |
| Lists.Take | src/components/dashboard/RecentAnalyses.jsx:52 | `slice(0, n)` is the prefix of length min(n, length) |
| Lists.SumBounds | src/pages/Dashboard.jsx:51 | a sum of n values lies between n times a lower and n times an upper bound of the values |
| Lists.RoundedMean | src/pages/Dashboard.jsx:50-52 | 0 for an empty list; otherwise the sum over the length rounded half up, between the smallest and largest value |
| Lists.RoundedMeanWithin | src/pages/Dashboard.jsx:50-52 | values within a range containing 0 keep the rounded mean within it |
| Tally.FirstIndex | src/components/keywords/KeywordInsights.jsx:12-15 | the first position of a key: it holds the key and no earlier position does |
| Tally.FirstIndexAppend | src/components/keywords/KeywordInsights.jsx:12-15 | appending an element keeps first positions, and a new key's first position is the end |
| Tally.Bump | src/components/keywords/KeywordInsights.jsx:13 | `acc[k] = (acc[k] \|\| 0) + 1`: an existing key keeps its place and a new key is appended at the end |
| Tally.BumpCounts | src/components/keywords/KeywordInsights.jsx:13 | a step raises only k's count, by one; the total rises by one and counts stay positive |
| Tally.CountBy | src/components/keywords/KeywordInsights.jsx:12-15 | counting by key: distinct keys, exactly the input's keys, each count equals the key's occurrences, counts positive and summing to the input length, entries in first-occurrence order |
| Tally.CountOfEntry | src/components/keywords/KeywordInsights.jsx:17 | with distinct keys an entry's count is its key's count |
| Tally.CountOfAbsent | src/components/keywords/KeywordInsights.jsx:17 | a key without an entry counts zero |
| Tally.DistinctKeysBound | src/pages/Reports.jsx:55-65 | entries with distinct keys from a set are no more numerous than the set |
| Tally.CountByEntry | src/components/keywords/KeywordInsights.jsx:17 | every entry's key occurs in the input and its count is the number of occurrences |
| Store.WriteInOrder | src/pages/Analysis.jsx:112-122 | a sequential awaited write loop completes iff no write throws; it writes all items in order, or exactly those before the failing one |
| Analysis.CleanUrl | src/pages/Analysis.jsx:35 | the result starts with `http`; it equals the input iff the input starts with `http`, else it is `https://` plus the input |
| Analysis.CleanUrlIdempotent | src/pages/Analysis.jsx:35 | normalising twice is normalising once |
| Analysis.BareHostGetsHttps | src/pages/Analysis.jsx:35 | `example.com` becomes `https://example.com`; `httpbin.org` is kept as it is |
| Analysis.NewWebsite | src/pages/Analysis.jsx:98-107 | the stored website has the normalised URL, status `completed` and the timestamp; title is the reported one or `Unknown Title`; description the reported one or empty; each score the reported one or 0 |
| Analysis.NewIssue | src/pages/Analysis.jsx:113-121 | the stored issue carries the website id, copies the text fields and severity unchanged, and stores the reported impact when it is present and not 0, else 5 |
| Analysis.NewIssues | src/pages/Analysis.jsx:111-122 | one stored issue per reported issue, in order; none when the list is missing or null |
| Analysis.ListOr | src/pages/Analysis.jsx:127-128 | `x \|\| []` on a list: the list when present, else empty |
| Analysis.Begin | src/pages/Analysis.jsx:29-31 | starting a request raises the loading flag and clears result and error |
| Analysis.Fail | src/pages/Analysis.jsx:131-137 | a failed request shows the fixed error message and stops loading; the result is left as it was |
| Analysis.AnalyzeWebsite | src/pages/Analysis.jsx:28-137 | the request always ends not loading with exactly one of result and the fixed error message; a website is stored iff the model answered and its write succeeded; the stored website is the record built from the cleaned URL, the model's website info and the time of the request; the stored issues are a prefix of the reported ones: all of them, with the result shown, when no issue write throws, and exactly the first k when write k throws; success iff every write went through, and then the result shows the stored website, the reported issues and the recommendations |
| Analysis.ResultCards | src/pages/Analysis.jsx:184-207 | four score cards for the four stored scores, themed blue, green, purple and orange in that order |
| Analysis.AnalyzeForgetsPreviousState | src/pages/Analysis.jsx:29-31 | the outcome does not depend on the state before the request |
| Analysis.PartialWriteKeepsEarlierRecords | src/pages/Analysis.jsx:112-132 | when issue write k throws, the website and the first k issues stay stored, and the page shows the error and no result |
| Analysis.OneCriticalIssueScenario | src/pages/Analysis.jsx:98-129 | a response scored 45 with one critical issue without impact and one recommendation stores a website scored 45, one critical issue of impact 5, and shows that recommendation |
| AnalysisForm.Submit | src/components/analysis/AnalysisForm.jsx:10-15 | `onAnalyze` is called iff the URL is not blank, with the trimmed URL |
| AnalysisForm.SubmittedUrlIsTrimmed | src/components/analysis/AnalysisForm.jsx:12-13 | the URL passed on is non-empty and has no whitespace at either end |
| AnalysisForm.SubmitDisabled | src/components/analysis/AnalysisForm.jsx:44 | the button is disabled iff the URL is blank or a request is loading |
| AnalysisForm.Render | src/components/analysis/AnalysisForm.jsx:38-57 | the input is disabled iff loading, and the button reads `Analyzing...` iff loading |
| AnalysisForm.EnabledIffSubmits | src/components/analysis/AnalysisForm.jsx:12-44 | when not loading, the button is enabled iff submitting would call `onAnalyze` |
| AnalysisForm.SubmitStable | src/components/analysis/AnalysisForm.jsx:13 | the argument passed on would be passed on unchanged again |
| Keywords.LoadData | src/pages/Keywords.jsx:33-46 | loading ends either way; both lists are replaced on success and kept on failure |
| Keywords.ToggleForm | src/pages/Keywords.jsx:130 | the button flips whether the form is shown and changes nothing else |
| Keywords.ToggleFormTwice | src/pages/Keywords.jsx:130 | toggling twice restores the page |
| Keywords.AddKeyword | src/pages/Keywords.jsx:48-56 | a successful write stores the record, reloads and closes the form; a failed one stores nothing and leaves the form as it was |
| Keywords.Researched | src/pages/Keywords.jsx:100-108 | a researched keyword has a null rank, target 10, trend `stable`, the reported keyword, volume and difficulty, no website, and category `secondary` unless one was given |
| Keywords.ResearchedAll | src/pages/Keywords.jsx:98-109 | one record per suggestion, in order; none when the list is missing or null |
| Keywords.ResearchKeywords | src/pages/Keywords.jsx:58-116 | the request ends not researching; the stored keywords are a prefix of the suggestions' records; a write that throws at position k leaves exactly k records; the lists are reloaded iff a present list was written completely |
| Keywords.ResearchedUnranked | src/pages/Keywords.jsx:104-105 | every keyword a research request stores has a null rank and a non-empty category |
| Keywords.ResearchSubmit | src/pages/Keywords.jsx:178-184 | research starts iff the seed is not blank, with the trimmed seed, and the input is then cleared; a blank seed is left as it is |
| Keywords.ResearchDisabled | src/pages/Keywords.jsx:197 | the button is disabled iff the seed is blank or research is running |
| Keywords.ResearchFormMatchesAnalysisForm | src/pages/Keywords.jsx:180-197 | the research form guards and disables exactly as the analysis form does |
| Keywords.ClearedFormIsDisabled | src/pages/Keywords.jsx:182 | after a submit the cleared form cannot submit again |
| KeywordForm.HandleChange | src/components/keywords/KeywordForm.jsx:18-20 | the named input takes the new value and every other input keeps its own |
| KeywordForm.FormDataByFields | src/components/keywords/KeywordForm.jsx:10-16 | form data is determined by its five inputs |
| KeywordForm.HandleChangeLaws | src/components/keywords/KeywordForm.jsx:18-20 | setting an input to its own value changes nothing; a later change of an input overrides an earlier one |
| KeywordForm.ConvertRank | src/components/keywords/KeywordForm.jsx:26-27 | an empty input becomes null, input without digits becomes NaN, anything else the number `parseInt` reads |
| KeywordForm.HandleSubmit | src/components/keywords/KeywordForm.jsx:22-30 | keyword, website and category pass through unchanged; each rank is null iff its input is empty, and is otherwise converted |
| KeywordForm.SubmitInitial | src/components/keywords/KeywordForm.jsx:10-16 | the untouched form submits no current rank, target 10 and category `primary` |
| KeywordForm.SubmitTypedRanks | src/components/keywords/KeywordForm.jsx:26-27 | ranks typed as decimal numbers are submitted as those numbers |
| KeywordForm.BlankRankIsNaN | src/components/keywords/KeywordForm.jsx:26 | a rank input of spaces is not empty, so it is parsed, to NaN |
| Metrics.SeoScores | src/pages/Dashboard.jsx:51 | each website's `seo_score \|\| 0`, in order |
| Metrics.AverageSeoScore | src/pages/Dashboard.jsx:50-52 | 0 for no websites; otherwise the rounded mean of the defaulted scores, between their minimum and maximum |
| Metrics.AverageSeoScoreInRange | src/pages/Dashboard.jsx:50-52 | scores within 0-100 give an average within 0-100 |
| Metrics.Difficulties | src/components/keywords/KeywordInsights.jsx:9 | each keyword's `difficulty \|\| 0`, in order |
| Metrics.AverageDifficulty | src/components/keywords/KeywordInsights.jsx:8-10 | 0 for no keywords; otherwise the rounded mean of the defaulted difficulties, between their minimum and maximum |
| Metrics.AverageOfEqualDifficulties | src/components/keywords/KeywordInsights.jsx:8-10 | equal difficulties average to that difficulty |
| Metrics.CriticalCount | src/pages/Dashboard.jsx:54 | the critical count plus the number of other issues is the number of issues; 0 iff no issue is critical; all issues iff all are critical |
| Metrics.TopTenCount | src/pages/Dashboard.jsx:55 | at most the number of keywords; 0 iff no keyword ranks within ten under the coerced comparison |
| Metrics.InTopTenCases | src/components/keywords/KeywordInsights.jsx:7 | a keyword counts iff its rank is null or a number up to 10; a missing rank never counts |
| Metrics.TopTenCountAppend | src/pages/Dashboard.jsx:55 | the top-ten count adds up over concatenated lists |
| Metrics.CriticalCountAppend | src/pages/Dashboard.jsx:54 | the critical count adds up over concatenated lists |
| Metrics.CriticalPartition | src/pages/Dashboard.jsx:54 | critical and non-critical issues together are all the issues |
| Dashboard.LoadData | src/pages/Dashboard.jsx:32-48 | loading ends either way; all three lists are replaced on success and all three kept on failure |
| Dashboard.AverageLabel | src/pages/Dashboard.jsx:95 | `Excellent` above 70, `Good` above 50, else `Needs Work` |
| Dashboard.AverageTrend | src/pages/Dashboard.jsx:97 | `up` iff the average is above 70, else `stable` |
| Dashboard.AverageTrendMatchesLabel | src/pages/Dashboard.jsx:95-97 | the average card points up iff it says `Excellent` |
| Dashboard.CriticalLabel | src/pages/Dashboard.jsx:111 | `Needs attention` iff some issue is critical, else `All good` |
| Dashboard.CriticalTrend | src/pages/Dashboard.jsx:113 | `down` iff some issue is critical, else `up` |
| Dashboard.WebsitesCard | src/pages/Dashboard.jsx:84-91 | shows the website count, trending up in green |
| Dashboard.AverageCard | src/pages/Dashboard.jsx:92-99 | shows the average with its label; the icon is up iff the average is above 70, neutral otherwise |
| Dashboard.TopTenCard | src/pages/Dashboard.jsx:100-107 | shows the coerced top-ten count and the total keyword count |
| Dashboard.CriticalCard | src/pages/Dashboard.jsx:108-115 | shows the critical count; down and red iff some issue is critical, green otherwise |
| Dashboard.Cards | src/pages/Dashboard.jsx:82-115 | four cards in page order: websites tracked, average SEO score, top-ten keywords and critical issues, each showing its own count or average |
| Dashboard.InitialCardsReadZero | src/pages/Dashboard.jsx:23-26 | before the first load every card reads 0, the average says `Needs Work` and the critical card `All good` |
| IssuesSummary.CriticalIssues | src/components/dashboard/IssuesSummary.jsx:8 | exactly the critical issues, each as often as in the input |
| IssuesSummary.WarningIssues | src/components/dashboard/IssuesSummary.jsx:9 | exactly the warning issues, each as often as in the input |
| IssuesSummary.CountsBounded | src/components/dashboard/IssuesSummary.jsx:8-9 | the two counts together never exceed the number of issues |
| IssuesSummary.CriticalIssuesInOrder | src/components/dashboard/IssuesSummary.jsx:8 | the critical list keeps the input order |
| IssuesSummary.Render | src/components/dashboard/IssuesSummary.jsx:26-58 | loading iff loading; the priority list is the first min(3, critical) critical issues in order; the all-clear message shows iff no issue is critical |
| IssuesSummary.LeadingCriticalIssuesArePriority | src/components/dashboard/IssuesSummary.jsx:48 | when the first three issues are critical they are the priority list |
| ScoreCard.Theme | src/components/analysis/ScoreCard.jsx:7-12 | the table defines exactly the four names blue, green, purple and orange; every theme's classes are free of spaces; blue's classes are the three blue classes |
| ScoreCard.Selected | src/components/analysis/ScoreCard.jsx:5-13 | an absent colour means blue; a table colour selects its theme; any other colour falls back to blue |
| ScoreCard.ColorClasses | src/components/analysis/ScoreCard.jsx:6-14 | the selected theme's string splits at spaces into exactly its three classes |
| ScoreCard.HueClasses | src/components/analysis/ScoreCard.jsx:7-12 | each of the four themes has its three classes, and no class contains a space |
| ScoreCard.Tokens | src/components/analysis/ScoreCard.jsx:22-24 | the split gives the theme's three classes |
| ScoreCard.GradientClass | src/components/analysis/ScoreCard.jsx:23 | tokens 0 and 1 rejoined: the theme's gradient stops |
| ScoreCard.TextClass | src/components/analysis/ScoreCard.jsx:24 | token 2: the theme's text class |
| ScoreCard.UnknownColorIsBlue | src/components/analysis/ScoreCard.jsx:13 | a colour outside the table renders exactly like the default blue |
| ScoreCard.NullColorIsBlue | src/components/analysis/ScoreCard.jsx:13 | a null colour renders blue too |
| ScoreCard.ScoreColor | src/components/analysis/ScoreCard.jsx:16-20 | green from 80, yellow from 60, red below |
| ScoreCard.Label | src/components/analysis/ScoreCard.jsx:48-50 | `Excellent` from 80, `Good` from 60, `Needs Improvement` from 40, `Poor` below: one label per score |
| ScoreCard.ColorMatchesLabel | src/components/analysis/ScoreCard.jsx:16-50 | green iff `Excellent`, yellow iff `Good`, red iff one of the two lower labels |
| ScoreCard.TiersMonotone | src/components/analysis/ScoreCard.jsx:48-50 | a higher score never gets a lower tier |
| RecentAnalyses.ScoreColor | src/components/dashboard/RecentAnalyses.jsx:10-14 | green from 80, yellow from 60, red otherwise, including null and missing scores |
| RecentAnalyses.ScoreBgColor | src/components/dashboard/RecentAnalyses.jsx:16-20 | the badge gradient on the same thresholds |
| RecentAnalyses.BadgeLabel | src/components/dashboard/RecentAnalyses.jsx:80-81 | `Excellent` from 80, `Good` from 60, else `Needs Work` |
| RecentAnalyses.TiersAgree | src/components/dashboard/RecentAnalyses.jsx:10-81 | the colour, gradient and label pick the same tier for every score |
| RecentAnalyses.NullScoreIsLowest | src/components/dashboard/RecentAnalyses.jsx:80-81 | null, missing and 0 scores all read `Needs Work` |
| RecentAnalyses.Render | src/components/dashboard/RecentAnalyses.jsx:31-52 | three placeholders iff loading; the empty state iff loaded with no websites; otherwise the first min(5, n) websites in order |
| KeywordCells.TrendIcon | src/components/dashboard/KeywordPerformance.jsx:9-15 | up-icon iff the trend is `up`, down-icon iff `down`, neutral otherwise, missing and null included |
| KeywordCells.RankText | src/components/dashboard/KeywordPerformance.jsx:59 | `N/A` iff the rank is missing, null or 0, otherwise the rank in decimal |
| KeywordCells.RankTextReadsBack | src/components/keywords/KeywordTable.jsx:63 | a shown rank reads back as the stored rank; `N/A` reads as no number |
| KeywordCells.FalsyRanksLookMissing | src/components/keywords/KeywordTable.jsx:63 | null and 0 ranks show as `N/A` like missing ones |
| KeywordPerformance.RowOf | src/components/dashboard/KeywordPerformance.jsx:55-65 | a row shows the keyword, volume and difficulty unchanged, `N/A` iff the rank is falsy, and the trend's icon |
| KeywordPerformance.Render | src/components/dashboard/KeywordPerformance.jsx:37-67 | five placeholders iff loading; the no-keywords row iff loaded and empty; otherwise rows for the first min(5, n) keywords in order |
| KeywordTable.CategoryClass | src/components/keywords/KeywordTable.jsx:17-22 | a badge class exactly for `primary`, `secondary`, `long-tail` and `competitor` |
| KeywordTable.CategoryClassesDistinct | src/components/keywords/KeywordTable.jsx:17-22 | different known categories get different badges |
| KeywordTable.RowOf | src/components/keywords/KeywordTable.jsx:58-65 | a row shows the fields unchanged, a badge iff the category is known, `N/A` iff the rank is falsy, and the trend's icon |
| KeywordTable.Render | src/components/keywords/KeywordTable.jsx:45-67 | five placeholders iff loading; otherwise one row per keyword in order, untruncated |
| StatsOverview.EffectiveTrend | src/components/dashboard/StatsOverview.jsx:10 | the trend defaults to `stable` only when not passed |
| StatsOverview.Gradient | src/components/dashboard/StatsOverview.jsx:11 | the gradient defaults to blue only when not passed; a passed value, null included, is interpolated as its string form |
| StatsOverview.Icon | src/components/dashboard/StatsOverview.jsx:13-19 | up-icon iff `up`, down-icon iff `down`, neutral otherwise and by default |
| StatsOverview.Color | src/components/dashboard/StatsOverview.jsx:21-27 | green iff `up`, red iff `down`, slate otherwise |
| StatsOverview.IconMatchesColor | src/components/dashboard/StatsOverview.jsx:13-27 | up-icon iff green, down-icon iff red, neutral iff slate |
| StatsOverview.Render | src/components/dashboard/StatsOverview.jsx:29-50 | the card shows the title, value and change it is given, with the trend's icon and colour and the defaulted gradient; a card with no trend is neutral and slate |
| KeywordInsights.CategoryKeys | src/components/keywords/KeywordInsights.jsx:13 | each keyword's object key is `String(category)` |
| KeywordInsights.CategoryCounts | src/components/keywords/KeywordInsights.jsx:12-15 | one positive entry per distinct key in first-seen order, counting that key's keywords; the counts sum to the number of keywords |
| KeywordInsights.PieData | src/components/keywords/KeywordInsights.jsx:17 | one slice per category entry, in the entries' order and with their counts; distinct names, each slice's value the category's count |
| KeywordInsights.SliceColor | src/components/keywords/KeywordInsights.jsx:49 | the colour at index mod 4, always in the palette |
| KeywordInsights.SliceColors | src/components/keywords/KeywordInsights.jsx:49 | neighbouring slices differ in colour, and colours repeat every four |
| KeywordInsights.MissingCategoryKey | src/components/keywords/KeywordInsights.jsx:13 | a missing category counts under `"undefined"`, with any literal `"undefined"`; null counts under `"null"` |
| KeywordInsights.PrimaryLongTailExample | src/components/keywords/KeywordInsights.jsx:12-17 | two `primary` and one `long-tail` keyword give `primary: 2` then `long-tail: 1` |
| KeywordInsights.Render | src/components/keywords/KeywordInsights.jsx:7-17 | the card shows the coerced top-ten count (at most the keyword count), the average difficulty and the slices |
| Reports.ChartLabel | src/pages/Reports.jsx:38 | the first 20 characters of the title plus `...`, or `undefined...` for a missing or null title |
| Reports.ChartLabelNeverFallsBack | src/pages/Reports.jsx:38 | no label equals the `Site N` fallback |
| Reports.ScoreData | src/pages/Reports.jsx:37-43 | one row per website in order, each score the stored one or 0 |
| Reports.ScoreDataMatchesAverage | src/pages/Reports.jsx:201 | the chart's SEO column averages to the summary figure |
| Reports.CategoryKeys | src/pages/Reports.jsx:46 | each issue's object key is `String(category)` |
| Reports.IssuesByCategory | src/pages/Reports.jsx:45-48 | one positive entry per distinct key in first-seen order; the counts sum to the number of issues |
| Reports.Upper | src/pages/Reports.jsx:51 | upper-casing maps `a`-`z` to `A`-`Z` by the code-point offset 32 and leaves every other character unchanged |
| Reports.Spaced | src/pages/Reports.jsx:51 | every underscore becomes a space and nothing else changes |
| Reports.DisplayName | src/pages/Reports.jsx:51 | the length is kept and no underscore is left; underscores become spaces, word starts are upper-cased, all else is unchanged |
| Reports.DisplayNameIdempotent | src/pages/Reports.jsx:51 | a display name is its own display name |
| Reports.DisplayNameExamples | src/pages/Reports.jsx:51 | `on_page` reads `On Page`; a missing category reads `Undefined` |
| Reports.IssuesChartData | src/pages/Reports.jsx:50-53 | one slice per category entry, named for display, valued at its count of at least 1 |
| Reports.SpacedAndUnderscoredShareAName | src/pages/Reports.jsx:50-53 | `on_page` and `on page` are counted apart but drawn under the same name |
| Reports.SliceColor | src/pages/Reports.jsx:143 | the colour at index mod 5, always in the palette |
| Reports.SliceColorsDiffer | src/pages/Reports.jsx:143 | neighbouring slices differ in colour; colours repeat every five |
| Reports.Band | src/pages/Reports.jsx:55-61 | every difficulty falls in exactly one band: Easy up to 25, Medium to 50, Hard to 75, Very Hard above; missing counts as 0 |
| Reports.BandIndex | src/pages/Reports.jsx:58-61 | each band's position in ascending order |
| Reports.BandMonotone | src/pages/Reports.jsx:58-61 | a harder keyword never lands in an easier band |
| Reports.MissingDifficultyIsEasy | src/pages/Reports.jsx:56 | missing, null and 0 difficulties are Easy |
| Reports.BandsOf | src/pages/Reports.jsx:56-61 | each keyword's band, in order |
| Reports.KeywordDifficultyData | src/pages/Reports.jsx:55-65 | at most four distinct bands, exactly the bands that occur, each positive and counting that band's keywords, summing to the number of keywords, in the order the bands first occur |
| Reports.DifficultyChartData | src/pages/Reports.jsx:67-70 | one bar per band entry, in order, with its name and count: no band gets two bars and every band that has keywords gets one |
| Reports.SummaryOf | src/pages/Reports.jsx:188-201 | the three list lengths and the average SEO score |
| Consistency.ResearchedKeywordsCountAsTopTen | src/pages/Keywords.jsx:105 | every researched keyword counts as top ten and shows `N/A` as its rank |
| Consistency.StoredCriticalMatchesReported | src/pages/Analysis.jsx:117 | the stored issues have as many critical ones as the model reported |
| Consistency.AverageTiersDifferFromCardTiers | src/pages/Dashboard.jsx:95 | 75 is `Excellent` on the dashboard but `Good` on the cards; 55 is `Good` there but `Needs Improvement` or `Needs Work` on the cards |
| Consistency.StoredWebsiteTiersAgree | src/components/dashboard/RecentAnalyses.jsx:80-81 | the analysis score card and the dashboard badge put a stored website in the same tier |
| Consistency.StatIconIsKeywordIcon | src/components/dashboard/StatsOverview.jsx:13-19 | the statistic card's icon equals the keyword tables' icon for every trend |
| Consistency.CriticalCardMatchesSummary | src/pages/Dashboard.jsx:54 | the critical card and the issues summary count the same issues |
| Consistency.ResultCardsUseDefinedThemes | src/pages/Analysis.jsx:184-207 | every result card's colour is defined by the score card's table |

## Left out

- The language model and entity store calls are not modelled. They become parameters: a `Completion` for each call, and `failAt` for the write loops. The store's `limit` arguments and sort keys belong to the backend.
- The form handlers are modelled on any string. The browser's input sanitisation and constraint validation are not modelled. A `type="number"` input turns non-numeric text into "" (src/components/keywords/KeywordForm.jsx:58, 62). A `type="url"` input strips outer whitespace and blocks URLs without a scheme (src/components/analysis/AnalysisForm.jsx:33). `required` blocks an empty keyword (src/components/keywords/KeywordForm.jsx:45).
- Prompt text is left out. It appears only as the URL or seed it embeds.
- Async interleaving is left out. This covers `Promise.all`, `useEffect`, and intermediate loading states while a request runs. Each request is modelled by the state it settles in.
- The reports page's `loadData` (src/pages/Reports.jsx:19-34) is the dashboard's apart from the `limit` arguments, and is modelled by `Dashboard.LoadData`. The dashboard passes limits of 10, 20 and 20 (src/pages/Dashboard.jsx:36-38) and the reports page passes none.
- The timestamp `new Date().toISOString()` is a parameter. The `date-fns` date formatting is not modelled.
- Numbers are integers. NaN, fractions and floating-point rounding of `Math.round` are not modelled. NaN appears only as the `NaNRank` outcome of the keyword form.
- `parseInt` follows decimal syntax only. Hexadecimal prefixes and the 2^53 limit are not modelled.
- Strings are sequences of characters, not UTF-16 code units. So `substring(0, 20)` cuts after 20 characters rather than 20 code units.
- Object keys that are integer-like are not modelled. JavaScript lists such keys first, in numeric order, rather than in insertion order.
- Object keys inherited from `Object.prototype` are not modelled. Examples are a category named `constructor` or `toString`, which would look up a function.
- Analysis.AnalyzeWebsite: the model's response is always an object. A null response, which would throw when its properties are read, is not modelled.
- Analysis.ResultCards: records which score each card shows but not the number's rendering. The card tiers treat null and missing scores like 0, which matches JavaScript's comparisons.
- The following are not modelled: navigation, layout and the reporting-period selector (stored but never used).
- src/pages/Layout.jsx, src/components/analysis/IssuesList.jsx and src/components/analysis/Recommendations.jsx are not part of this model. They hold rendering only.
- CSS classes are modelled only where a tier, theme or lookup table selects them. Chart widgets and icons are left out.
- Js.NatToString and Js.IntToString: always render plain decimal digits. JavaScript renders numbers of 1e21 and above in exponent form, and that form is not modelled.

=== FILE: analysis.dfy ===
/** The website-analysis request (`analyzeWebsite`): normalise the URL, ask
    the language model for a report, persist one Website and then its issues
    one by one, and publish either the result or a fixed error message.

    The model call and the store writes are parameters: `llm` is what the
    model returned (or that it threw), `created` is the id the store assigned
    to the new website (or that the write threw), `issueFailAt` is the
    position of the first issue write that throws, and `now` is the
    timestamp. The prompt text is not modelled beyond the URL it names. */
module Analysis {
  import opened Js
  import opened Entities
  import Store

  /** `website_info` of the model's response. */
  datatype WebsiteInfo = WebsiteInfo(
    title: Field<string>,
    description: Field<string>,
    seo_score: Field<int>,
    performance_score: Field<int>,
    accessibility_score: Field<int>,
    best_practices_score: Field<int>)

  /** One element of `issues` in the model's response. */
  datatype IssueReport = IssueReport(
    title: Field<string>,
    description: Field<string>,
    severity: Field<string>,
    category: Field<string>,
    fix_suggestion: Field<string>,
    impact_score: Field<int>)

  datatype Response = Response(
    website_info: Field<WebsiteInfo>,
    issues: Field<seq<IssueReport>>,
    recommendations: Field<seq<string>>)

  /** What the page shows after a successful analysis. */
  datatype Outcome = Outcome(website: Website, issues: seq<IssueReport>, recommendations: seq<string>)

  /** The page's request state: the loading flag, the result, the error. */
  datatype State = State(isAnalyzing: bool, result: Option<Outcome>, error: Option<string>)

  /** The effect of one request: the URL named in the prompt, the records it
      persisted, and the page state once it has settled. */
  datatype Run = Run(requestedUrl: string, websites: seq<Website>, issues: seq<SeoIssue>, state: State)

  const ErrorMessage := "Failed to analyze website. Please check the URL and try again."

  /** `url.startsWith('http') ? url : `https://${url}``. The test is a
      case-sensitive prefix test, not a scheme check: `httpbin.org` is kept
      as it is and `HTTP://x` gains a second scheme. */
  function CleanUrl(url: string): (r: string)
    ensures StartsWith(r, "http")
    ensures r == url <==> StartsWith(url, "http")
    ensures r != url ==> r == "https://" + url
  {
    if StartsWith(url, "http") then url
    else
      var r := "https://" + url;
      assert r[..4] == "http";
      r
  }

  /** Normalising a normalised URL changes nothing. */
  lemma CleanUrlIdempotent(url: string)
    ensures CleanUrl(CleanUrl(url)) == CleanUrl(url)
  {
  }

  /** `result.website_info?.x`: when the object is missing or null every
      property reads as missing. */
  function Info(info: Field<WebsiteInfo>): WebsiteInfo {
    if info.Present? then info.value
    else WebsiteInfo(Undefined, Undefined, Undefined, Undefined, Undefined, Undefined)
  }

  function ScoreOrZero(x: Field<int>): int {
    NumOr(x, 0)
  }

  /** The record passed to `Website.create`, with the id the store gave it. */
  function NewWebsite(id: string, cleanUrl: string, info: Field<WebsiteInfo>, now: string): (w: Website)
    ensures w.id == id && w.url == Present(cleanUrl)
    ensures w.status == Present("completed") && w.last_analyzed == Present(now)
    // the title is the reported one unless that is missing or empty
    ensures w.title.Present? && w.title.value != ""
    ensures w.title.value != "Unknown Title" ==>
              info.Present? && w.title == info.value.title
    ensures info.Present? && StrTruthy(info.value.title) ==> w.title == info.value.title
    ensures w.description == Present(
              if info.Present? && info.value.description.Present? then info.value.description.value else "")
    // each score is the reported number, or 0 when it is missing
    ensures w.seo_score == Present(
              if info.Present? && info.value.seo_score.Present? then info.value.seo_score.value else 0)
    ensures w.performance_score == Present(
              if info.Present? && info.value.performance_score.Present? then info.value.performance_score.value else 0)
    ensures w.accessibility_score == Present(
              if info.Present? && info.value.accessibility_score.Present? then info.value.accessibility_score.value else 0)
    ensures w.best_practices_score == Present(
              if info.Present? && info.value.best_practices_score.Present? then info.value.best_practices_score.value else 0)
  {
    var i := Info(info);
    Website(
      id,
      Present(cleanUrl),
      Present(StrOr(i.title, "Unknown Title")),
      Present(StrOr(i.description, "")),
      Present(ScoreOrZero(i.seo_score)),
      Present(ScoreOrZero(i.performance_score)),
      Present(ScoreOrZero(i.accessibility_score)),
      Present(ScoreOrZero(i.best_practices_score)),
      Present("completed"),
      Present(now))
  }

  /** The record passed to `SeoIssue.create` for one reported issue. */
  function NewIssue(websiteId: string, r: IssueReport): (s: SeoIssue)
    ensures s.website_id == Present(websiteId)
    // text fields and severity are copied with no default and no check
    ensures s.title == r.title && s.description == r.description
    ensures s.severity == r.severity && s.category == r.category
    ensures s.fix_suggestion == r.fix_suggestion
    // the impact is the reported one, or 5 when it is missing or zero
    ensures s.impact_score == Present(if NumTruthy(r.impact_score) then r.impact_score.value else 5)
    ensures s.impact_score.value == 5 <==> !NumTruthy(r.impact_score) || r.impact_score.value == 5
  {
    SeoIssue(Present(websiteId), r.title, r.description, r.severity, r.category,
             r.fix_suggestion, Present(NumOr(r.impact_score, 5)))
  }

  /** The issue records to create: one per reported issue, in order, none
      when `issues` is missing, null or empty. */
  function NewIssues(websiteId: string, issues: Field<seq<IssueReport>>): (r: seq<SeoIssue>)
    ensures |r| == (if issues.Present? then |issues.value| else 0)
    ensures forall i :: 0 <= i < |r| ==> r[i] == NewIssue(websiteId, issues.value[i])
  {
    if issues.Present? && |issues.value| > 0 then
      seq(|issues.value|, i requires 0 <= i < |issues.value| => NewIssue(websiteId, issues.value[i]))
    else []
  }

  /** `x || []` on a list property. */
  function ListOr<T>(x: Field<seq<T>>): (r: seq<T>)
    ensures x.Present? ==> r == x.value
    ensures !x.Present? ==> r == []
  {
    if x.Present? then x.value else []
  }

  /** Starting a request: the loading flag goes up and the previous result
      and error are cleared. */
  function Begin(s: State): (t: State)
    ensures t.isAnalyzing && t.result.None? && t.error.None?
  {
    s.(isAnalyzing := true, result := None, error := None)
  }

  /** The catch block, then the flag reset after it. */
  function Fail(s: State): (t: State)
    ensures t.error == Some(ErrorMessage) && !t.isAnalyzing
    ensures t.result == s.result
  {
    s.(error := Some(ErrorMessage), isAnalyzing := false)
  }

  /** `analyzeWebsite(url)` from the state `s` the page was in. */
  function AnalyzeWebsite(s: State, url: string, llm: Completion<Response>, created: Completion<string>,
                          issueFailAt: Option<nat>, now: string): (run: Run)
    ensures run.requestedUrl == CleanUrl(url)
    // the request always settles: not loading, and exactly one of result and error
    ensures !run.state.isAnalyzing
    ensures run.state.result.Some? <==> run.state.error.None?
    ensures run.state.error.Some? ==> run.state.error.value == ErrorMessage
    // nothing is persisted unless the model answered and the website write succeeded
    ensures |run.websites| <= 1
    ensures |run.websites| == 1 <==> llm.Normal? && created.Normal?
    ensures run.websites == [] ==> run.issues == []
    ensures |run.websites| == 1 ==>
              run.websites[0] == NewWebsite(created.value, CleanUrl(url), llm.value.website_info, now)
    ensures |run.websites| == 1 ==>
              var w := run.websites[0];
              && w.id == created.value && w.url == Present(CleanUrl(url)) && w.status == Present("completed")
              && |run.issues| <= |NewIssues(created.value, llm.value.issues)|
              && run.issues == NewIssues(created.value, llm.value.issues)[..|run.issues|]
    // every issue is stored and the result shown when no issue write throws;
    // a throw at write k leaves exactly the k issues before it
    ensures (llm.Normal? && created.Normal?
             && (issueFailAt.None? || issueFailAt.value >= |NewIssues(created.value, llm.value.issues)|)) ==>
              run.state.result.Some? && run.issues == NewIssues(created.value, llm.value.issues)
    ensures (llm.Normal? && created.Normal?
             && issueFailAt.Some? && issueFailAt.value < |NewIssues(created.value, llm.value.issues)|) ==>
              run.state.error.Some? && |run.issues| == issueFailAt.value
    // success means every write went through
    ensures run.state.result.Some? <==>
              llm.Normal? && created.Normal?
              && |run.issues| == (if llm.value.issues.Present? then |llm.value.issues.value| else 0)
    ensures run.state.result.Some? ==>
              && run.state.result.value.website == run.websites[0]
              && run.state.result.value.issues == ListOr(llm.value.issues)
              && run.state.result.value.recommendations == ListOr(llm.value.recommendations)
  {
    var clean := CleanUrl(url);
    var started := Begin(s);
    match llm
    case Throw => Run(clean, [], [], Fail(started))
    case Normal(response) =>
      match created
      case Throw => Run(clean, [], [], Fail(started))
      case Normal(id) =>
        var website := NewWebsite(id, clean, response.website_info, now);
        var batch := Store.WriteInOrder(NewIssues(id, response.issues), issueFailAt);
        if !batch.completed then Run(clean, [website], batch.written, Fail(started))
        else
          var outcome := Outcome(website, ListOr(response.issues), ListOr(response.recommendations));
          Run(clean, [website], batch.written, started.(result := Some(outcome), isAnalyzing := false))
  }

  /** One of the four score cards shown with a result: its title, the
      score it shows, and the colour theme it asks for. */
  datatype ResultCard = ResultCard(title: string, score: Field<int>, color: string)

  function ResultCards(w: Website): (cards: seq<ResultCard>)
    ensures |cards| == 4
    ensures cards[0].score == w.seo_score && cards[1].score == w.performance_score
    ensures cards[2].score == w.accessibility_score && cards[3].score == w.best_practices_score
    // four different themes, in the order blue, green, purple, orange
    ensures forall i, j :: 0 <= i < j < 4 ==> cards[i].color != cards[j].color
    ensures cards[0].color == "blue" && cards[1].color == "green"
    ensures cards[2].color == "purple" && cards[3].color == "orange"
  {
    [ ResultCard("SEO Score", w.seo_score, "blue"),
      ResultCard("Performance", w.performance_score, "green"),
      ResultCard("Accessibility", w.accessibility_score, "purple"),
      ResultCard("Best Practices", w.best_practices_score, "orange") ]
  }

  /** The settled state does not depend on what the page showed before: the
      start of every request clears it. */
  lemma AnalyzeForgetsPreviousState(s1: State, s2: State, url: string, llm: Completion<Response>,
                                    created: Completion<string>, issueFailAt: Option<nat>, now: string)
    ensures AnalyzeWebsite(s1, url, llm, created, issueFailAt, now)
         == AnalyzeWebsite(s2, url, llm, created, issueFailAt, now)
  {
  }

  /** A failing issue write is not rolled back: the website and the issues
      written before it stay, and the page shows the error. */
  lemma PartialWriteKeepsEarlierRecords(s: State, url: string, response: Response, id: string,
                                        k: nat, now: string)
    requires response.issues.Present? && k < |response.issues.value|
    ensures var run := AnalyzeWebsite(s, url, Normal(response), Normal(id), Some(k), now);
            && |run.websites| == 1
            && |run.issues| == k
            && (forall i :: 0 <= i < k ==> run.issues[i] == NewIssue(id, response.issues.value[i]))
            && run.state.error == Some(ErrorMessage)
            && run.state.result.None?
  {
  }

  /** A bare host name is sent to the model with `https://` in front. */
  lemma BareHostGetsHttps()
    ensures CleanUrl("example.com") == "https://example.com"
    ensures CleanUrl("httpbin.org") == "httpbin.org"
  {
    assert !StartsWith("example.com", "http") by {
      assert "example.com"[..4][0] == 'e';
    }
    assert "httpbin.org"[..4] == "http";
  }

  /** A report with one critical issue, a score of 45 and one
      recommendation yields one website scored 45, one critical issue with
      the default impact, and that recommendation on the page. */
  lemma OneCriticalIssueScenario(s: State, id: string, now: string)
    ensures var issue := IssueReport(Present("t"), Present("d"), Present("critical"), Present("meta"),
                                     Present("f"), Undefined);
            var info := WebsiteInfo(Undefined, Undefined, Present(45), Undefined, Undefined, Undefined);
            var response := Response(Present(info), Present([issue]), Present(["Fix X"]));
            var run := AnalyzeWebsite(s, "example.com", Normal(response), Normal(id), None, now);
            && |run.websites| == 1
            && run.websites[0].seo_score == Present(45)
            && run.websites[0].status == Present("completed")
            && run.issues == [SeoIssue(Present(id), Present("t"), Present("d"), Present("critical"),
                                       Present("meta"), Present("f"), Present(5))]
            && run.state.result.Some?
            && run.state.result.value.recommendations == ["Fix X"]
  {
    var issue := IssueReport(Present("t"), Present("d"), Present("critical"), Present("meta"),
                             Present("f"), Undefined);
    var info := WebsiteInfo(Undefined, Undefined, Present(45), Undefined, Undefined, Undefined);
    var response := Response(Present(info), Present([issue]), Present(["Fix X"]));
    var run := AnalyzeWebsite(s, "example.com", Normal(response), Normal(id), None, now);
    assert NewIssues(id, response.issues) == [NewIssue(id, issue)];
  }
}

=== FILE: analysis_form.dfy ===
/** The URL form of the analysis page: it submits the trimmed URL when it is
    not blank, and disables itself while a request is in flight. */
module AnalysisForm {
  import opened Js

  /** What `handleSubmit` passes to `onAnalyze`, or `None` when it does not
      call it. */
  function Submit(url: string): (call: Option<string>)
    ensures call.Some? <==> !AllWhitespace(url)
    ensures call.Some? ==> call.value == Trim(url)
  {
    var t := Trim(url);
    if t != "" then Some(t) else None
  }

  /** `disabled={!url.trim() || isLoading}` on the submit button. */
  function SubmitDisabled(url: string, isLoading: bool): (disabled: bool)
    ensures disabled <==> AllWhitespace(url) || isLoading
  {
    Trim(url) == "" || isLoading
  }

  datatype View = View(inputDisabled: bool, submitDisabled: bool, buttonText: string)

  /** The input is locked while loading and the button says so. */
  function Render(url: string, isLoading: bool): (v: View)
    ensures v.inputDisabled == isLoading
    ensures v.buttonText == "Analyzing..." <==> isLoading
    ensures v.submitDisabled == SubmitDisabled(url, isLoading)
  {
    View(isLoading, SubmitDisabled(url, isLoading), if isLoading then "Analyzing..." else "Analyze Website")
  }

  /** When no request is loading, the button is enabled exactly when
      submitting would call `onAnalyze`. */
  lemma EnabledIffSubmits(url: string)
    ensures !SubmitDisabled(url, false) <==> Submit(url).Some?
  {
  }

  /** The argument passed on is never blank and has no whitespace at
      either end. */
  lemma SubmittedUrlIsTrimmed(url: string)
    requires Submit(url).Some?
    ensures var u := Submit(url).value;
            u != [] && !IsWhitespace(u[0]) && !IsWhitespace(u[|u| - 1])
  {
  }

  /** Re-submitting the argument that was passed on submits the same text. */
  lemma SubmitStable(url: string)
    requires Submit(url).Some?
    ensures Submit(Submit(url).value) == Submit(url)
  {
    TrimIdempotent(url);
  }
}

=== FILE: consistency.dfy ===
/** Properties that relate several views or requests: what one part of the
    application writes, another part reads back. */
module Consistency {
  import opened Js
  import opened Entities
  import opened Lists
  import Analysis
  import Keywords
  import Metrics
  import ScoreCard
  import RecentAnalyses
  import Dashboard
  import IssuesSummary
  import StatsOverview
  import KeywordCells

  /** A keyword created by research has a null rank, so the dashboard and
      the insights card count it as ranked in the top ten, while both
      tables show its rank as "N/A". */
  lemma ResearchedKeywordsCountAsTopTen(llm: Completion<Keywords.ResearchResponse>, failAt: Option<nat>)
    ensures var created := Keywords.ResearchKeywords(llm, failAt).created;
            && Metrics.TopTenCount(created) == |created|
            && forall i :: 0 <= i < |created| ==> KeywordCells.RankText(created[i].current_rank) == "N/A"
  {
    var created := Keywords.ResearchKeywords(llm, failAt).created;
    forall i | 0 <= i < |created|
      ensures InTopTen(created[i]) && created[i].current_rank == Null
    {
      Keywords.ResearchedUnranked(llm, failAt, i);
    }
  }

  /** A reported issue is critical when its severity is exactly `critical`. */
  predicate ReportedCritical(r: Analysis.IssueReport) {
    r.severity == Present("critical")
  }

  /** The issues an analysis stores contain exactly as many critical issues
      as the model reported: the severity is copied unchanged. */
  lemma {:induction false} StoredCriticalMatchesReported(id: string, reports: seq<Analysis.IssueReport>)
    ensures Metrics.CriticalCount(Analysis.NewIssues(id, Present(reports)))
         == |Filter(reports, ReportedCritical)|
  {
    var stored := Analysis.NewIssues(id, Present(reports));
    if |reports| > 0 {
      var init := reports[..|reports| - 1];
      var last := reports[|reports| - 1];
      assert reports == init + [last];
      var storedInit := Analysis.NewIssues(id, Present(init));
      assert stored == storedInit + [Analysis.NewIssue(id, last)];
      StoredCriticalMatchesReported(id, init);
      Metrics.CriticalCountAppend(storedInit, [Analysis.NewIssue(id, last)]);
      FilterAppend(init, [last], ReportedCritical);
    }
  }

  /** The dashboard's average caption uses other thresholds than the score
      card and the recent-analyses badge: the same 75 reads "Excellent" on
      the dashboard and "Good" on the cards, and 55 reads "Good" on the
      dashboard and "Needs Improvement" or "Needs Work" on the cards. */
  lemma AverageTiersDifferFromCardTiers()
    ensures Dashboard.AverageLabel(75) == "Excellent"
    ensures ScoreCard.Label(75) == "Good" && RecentAnalyses.BadgeLabel(Present(75)) == "Good"
    ensures Dashboard.AverageLabel(55) == "Good"
    ensures ScoreCard.Label(55) == "Needs Improvement" && RecentAnalyses.BadgeLabel(Present(55)) == "Needs Work"
  {
  }

  /** For a website stored by an analysis, the analysis page's score card and
      the dashboard's badge put its SEO score in the same tier. */
  lemma StoredWebsiteTiersAgree(id: string, url: string, info: Field<Analysis.WebsiteInfo>, now: string)
    ensures var w := Analysis.NewWebsite(id, url, info, now);
            var card := ScoreCard.Label(SeoScore(w));
            var badge := RecentAnalyses.BadgeLabel(w.seo_score);
            && (card == "Excellent" <==> badge == "Excellent")
            && (card == "Good" <==> badge == "Good")
            && (card == "Needs Improvement" || card == "Poor" <==> badge == "Needs Work")
  {
  }

  /** The statistic card's trend icon is the keyword tables' icon: the
      `"stable"` default it applies to a missing trend shows the same
      neutral icon as no trend at all. */
  lemma StatIconIsKeywordIcon(trend: Field<string>)
    ensures StatsOverview.Icon(trend) == KeywordCells.TrendIcon(trend)
  {
  }

  /** The dashboard's critical card and its issues summary count the same
      issues. */
  lemma CriticalCardMatchesSummary(p: Dashboard.Page)
    ensures Dashboard.CriticalCard(p.issues).value
         == IntToString(IssuesSummary.Render(p.issues, false).critical)
  {
  }

  /** The four result cards ask for themes the score card's table defines,
      so none of them falls back to blue. */
  lemma ResultCardsUseDefinedThemes(w: Entities.Website)
    ensures forall c :: c in Analysis.ResultCards(w) ==> ScoreCard.Theme(c.color).Some?
  {
  }
}

=== FILE: dashboard.dfy ===
/** The dashboard page: three lists loaded together, four statistic cards
    computed from them, and the lists handed to the recent-analyses,
    keyword-performance and issues-summary cards. */
module Dashboard {
  import opened Js
  import opened Entities
  import opened Metrics
  import StatsOverview
  import opened KeywordCells

  datatype Page = Page(websites: seq<Website>, keywords: seq<Keyword>, issues: seq<SeoIssue>, isLoading: bool)

  const Initial := Page([], [], [], true)

  /** `loadData`: all three lists are replaced when the three queries
      succeed together; otherwise all three stay. Loading ends either way.
      How many records each query returns is up to the store. */
  function LoadData(p: Page, listed: Completion<(seq<Website>, seq<Keyword>, seq<SeoIssue>)>): (q: Page)
    ensures !q.isLoading
    ensures listed.Normal? ==> q == Page(listed.value.0, listed.value.1, listed.value.2, false)
    ensures listed.Throw? ==> q == p.(isLoading := false)
  {
    match listed
    case Normal((ws, ks, found)) => Page(ws, ks, found, false)
    case Throw => p.(isLoading := false)
  }

  /** The caption of the average-score card: strict thresholds at 70 and 50. */
  function AverageLabel(avg: int): (r: string)
    ensures r == "Excellent" <==> avg > 70
    ensures r == "Good" <==> 50 < avg <= 70
    ensures r == "Needs Work" <==> avg <= 50
  {
    if avg > 70 then "Excellent" else if avg > 50 then "Good" else "Needs Work"
  }

  /** The trend of the average-score card. */
  function AverageTrend(avg: int): (r: string)
    ensures r == "up" <==> avg > 70
    ensures r == "stable" <==> avg <= 70
  {
    if avg > 70 then "up" else "stable"
  }

  /** The average card points up exactly when its caption says "Excellent". */
  lemma AverageTrendMatchesLabel(avg: int)
    ensures AverageTrend(avg) == "up" <==> AverageLabel(avg) == "Excellent"
  {
  }

  /** The caption of the critical-issues card. */
  function CriticalLabel(critical: nat): (r: string)
    ensures r == "Needs attention" <==> critical > 0
    ensures r == "All good" <==> critical == 0
  {
    if critical > 0 then "Needs attention" else "All good"
  }

  /** The trend of the critical-issues card: down while any issue is
      critical. */
  function CriticalTrend(critical: nat): (r: string)
    ensures r == "down" <==> critical > 0
    ensures r == "up" <==> critical == 0
  {
    if critical > 0 then "down" else "up"
  }

  /** The "Websites Tracked" card: the list length, always trending up. */
  function WebsitesCard(websites: seq<Website>): (c: StatsOverview.Card)
    ensures c.title == "Websites Tracked"
    ensures c.value == IntToString(|websites|) && c.icon == TrendingUp && c.changeColor == "text-green-600"
  {
    StatsOverview.Render("Websites Tracked", IntToString(|websites|), "+12% this month",
                         Present("up"), Present("from-blue-500 to-blue-600"))
  }

  /** The "Average SEO Score" card: up and green only above 70. */
  function AverageCard(websites: seq<Website>): (c: StatsOverview.Card)
    ensures c.title == "Average SEO Score"
    ensures c.value == IntToString(AverageSeoScore(websites))
    ensures c.change == AverageLabel(AverageSeoScore(websites))
    ensures c.icon == TrendingUp <==> AverageSeoScore(websites) > 70
    ensures c.icon == Minus <==> AverageSeoScore(websites) <= 70
    ensures c.changeColor == "text-slate-500" <==> AverageSeoScore(websites) <= 70
  {
    var avg := AverageSeoScore(websites);
    StatsOverview.Render("Average SEO Score", IntToString(avg), AverageLabel(avg),
                         Present(AverageTrend(avg)), Present("from-green-500 to-emerald-600"))
  }

  /** The "Top 10 Keywords" card: the coerced top-ten count, with the list
      length in the caption. */
  function TopTenCard(keywords: seq<Keyword>): (c: StatsOverview.Card)
    ensures c.title == "Top 10 Keywords"
    ensures c.value == IntToString(TopTenCount(keywords))
    ensures c.change == IntToString(|keywords|) + " total tracked"
    ensures c.icon == TrendingUp
  {
    StatsOverview.Render("Top 10 Keywords", IntToString(TopTenCount(keywords)),
                         IntToString(|keywords|) + " total tracked",
                         Present("up"), Present("from-purple-500 to-purple-600"))
  }

  /** The "Critical Issues" card: down and red while any issue is critical. */
  function CriticalCard(issues: seq<SeoIssue>): (c: StatsOverview.Card)
    ensures c.title == "Critical Issues"
    ensures c.value == IntToString(CriticalCount(issues))
    ensures c.change == CriticalLabel(CriticalCount(issues))
    ensures c.icon == TrendingDown <==> CriticalCount(issues) > 0
    ensures c.changeColor == "text-red-600" <==> CriticalCount(issues) > 0
    ensures c.changeColor == "text-green-600" <==> CriticalCount(issues) == 0
  {
    var critical := CriticalCount(issues);
    StatsOverview.Render("Critical Issues", IntToString(critical), CriticalLabel(critical),
                         Present(CriticalTrend(critical)), Present("from-amber-500 to-orange-600"))
  }

  /** The four statistic cards, in page order. */
  function Cards(p: Page): (cs: seq<StatsOverview.Card>)
    ensures |cs| == 4
    ensures && cs[0].title == "Websites Tracked" && cs[1].title == "Average SEO Score"
            && cs[2].title == "Top 10 Keywords" && cs[3].title == "Critical Issues"
    ensures && cs[0].value == IntToString(|p.websites|)
            && cs[1].value == IntToString(AverageSeoScore(p.websites))
            && cs[2].value == IntToString(TopTenCount(p.keywords))
            && cs[3].value == IntToString(CriticalCount(p.issues))
  {
    var a, b, c, d := WebsitesCard(p.websites), AverageCard(p.websites), TopTenCard(p.keywords), CriticalCard(p.issues);
    var cs := [a, b, c, d];
    assert cs[0] == a && cs[1] == b && cs[2] == c && cs[3] == d;
    cs
  }

  /** Before the first load settles every card reads zero. */
  lemma InitialCardsReadZero()
    ensures forall c :: c in Cards(Initial) ==> c.value == "0"
    ensures Cards(Initial)[1].change == "Needs Work"
    ensures Cards(Initial)[3].change == "All good"
  {
    assert IntToString(0) == "0";
  }
}

=== FILE: entities.dfy ===
/** The three record types of the entity store, as the views read them back:
    any property may be missing or null, since the store does not enforce
    the schema the prompts ask for. Store-assigned metadata other than the
    website id (creation dates, issue and keyword ids used only as list keys)
    is not part of this model. */
module Entities {
  import opened Js

  datatype Website = Website(
    id: string,
    url: Field<string>,
    title: Field<string>,
    description: Field<string>,
    seo_score: Field<int>,
    performance_score: Field<int>,
    accessibility_score: Field<int>,
    best_practices_score: Field<int>,
    status: Field<string>,
    last_analyzed: Field<string>)

  datatype SeoIssue = SeoIssue(
    website_id: Field<string>,
    title: Field<string>,
    description: Field<string>,
    severity: Field<string>,
    category: Field<string>,
    fix_suggestion: Field<string>,
    impact_score: Field<int>)

  datatype Keyword = Keyword(
    keyword: Field<string>,
    website_id: Field<string>,
    current_rank: Field<int>,
    target_rank: Field<int>,
    search_volume: Field<int>,
    difficulty: Field<int>,
    category: Field<string>,
    trend: Field<string>)

  /** `issue.severity === 'critical'` (strict equality: no coercion). */
  predicate IsCritical(issue: SeoIssue) {
    issue.severity == Present("critical")
  }

  /** `issue.severity === 'warning'`. */
  predicate IsWarning(issue: SeoIssue) {
    issue.severity == Present("warning")
  }

  /** `k.current_rank <= 10` as JavaScript evaluates it: a null rank counts
      (null converts to 0), a missing rank does not. */
  predicate InTopTen(k: Keyword) {
    LooseLe(k.current_rank, 10)
  }

  /** The website's `seo_score || 0`. */
  function SeoScore(w: Website): int {
    NumOr(w.seo_score, 0)
  }
}

=== FILE: issues_summary.dfy ===
/** The dashboard's issues summary: the number of critical and warning
    issues, and up to three critical issues listed as top priority. */
module IssuesSummary {
  import opened Js
  import opened Entities
  import opened Lists

  /** `issues.filter(i => i.severity === 'critical')`. */
  function CriticalIssues(issues: seq<SeoIssue>): (r: seq<SeoIssue>)
    ensures |r| <= |issues|
    ensures forall i :: 0 <= i < |r| ==> IsCritical(r[i])
    ensures forall x :: multiset(r)[x] == if IsCritical(x) then multiset(issues)[x] else 0
  {
    Filter(issues, IsCritical)
  }

  /** `issues.filter(i => i.severity === 'warning')`. */
  function WarningIssues(issues: seq<SeoIssue>): (r: seq<SeoIssue>)
    ensures |r| <= |issues|
    ensures forall i :: 0 <= i < |r| ==> IsWarning(r[i])
    ensures forall x :: multiset(r)[x] == if IsWarning(x) then multiset(issues)[x] else 0
  {
    Filter(issues, IsWarning)
  }

  /** No issue is both critical and a warning, so the two counts together
      never exceed the number of issues. */
  lemma CountsBounded(issues: seq<SeoIssue>)
    ensures |CriticalIssues(issues)| + |WarningIssues(issues)| <= |issues|
  {
    FilterDisjointLength(issues, IsCritical, IsWarning);
  }

  /** The filters keep the list order: a list that starts with `a` keeps
      `a`'s critical issues ahead of the rest. */
  lemma CriticalIssuesInOrder(a: seq<SeoIssue>, b: seq<SeoIssue>)
    ensures CriticalIssues(a + b) == CriticalIssues(a) + CriticalIssues(b)
  {
    FilterAppend(a, b, IsCritical);
  }

  /** The loaded card: the two counts, the priority list, and whether the
      all-clear message replaces it. */
  datatype View = Loading | Loaded(critical: nat, warnings: nat, priority: seq<SeoIssue>, allClear: bool)

  function Render(issues: seq<SeoIssue>, isLoading: bool): (v: View)
    ensures v.Loading? <==> isLoading
    ensures v.Loaded? ==> v.critical == |CriticalIssues(issues)| && v.warnings == |WarningIssues(issues)|
    ensures v.Loaded? ==> v.critical + v.warnings <= |issues|
    // the priority list: the first three critical issues, in order
    ensures v.Loaded? ==> |v.priority| == (if v.critical < 3 then v.critical else 3)
    ensures v.Loaded? ==> v.priority == CriticalIssues(issues)[..|v.priority|]
    ensures v.Loaded? ==> forall i :: 0 <= i < |v.priority| ==> IsCritical(v.priority[i])
    // the all-clear message shows exactly when there is no critical issue
    ensures v.Loaded? ==> (v.allClear <==> v.critical == 0)
    ensures v.Loaded? ==> (v.allClear <==> forall i :: 0 <= i < |issues| ==> !IsCritical(issues[i]))
  {
    if isLoading then Loading
    else
      var critical := CriticalIssues(issues);
      CountsBounded(issues);
      FilterEmptyIff(issues, IsCritical);
      Loaded(|critical|, |WarningIssues(issues)|, if |critical| > 0 then Take(critical, 3) else [], |critical| == 0)
  }

  /** When the first three issues are all critical, they are the priority
      list. */
  lemma LeadingCriticalIssuesArePriority(issues: seq<SeoIssue>)
    requires |issues| >= 3 && forall i :: 0 <= i < 3 ==> IsCritical(issues[i])
    ensures Render(issues, false).priority == issues[..3]
  {
    LeadingCriticalPrefix(issues);
  }

  lemma LeadingCriticalPrefix(issues: seq<SeoIssue>)
    requires |issues| >= 3 && forall i :: 0 <= i < 3 ==> IsCritical(issues[i])
    ensures |CriticalIssues(issues)| >= 3 && CriticalIssues(issues)[..3] == issues[..3]
  {
    var first, rest := issues[..3], issues[3..];
    assert issues == first + rest;
    CriticalIssuesInOrder(first, rest);
    FilterAll(first, IsCritical);
  }
}

=== FILE: js.dfy ===
/** The slice of JavaScript value semantics the views depend on: absent and
    null properties, truthiness and `||` defaults, loose comparison of a
    property against a number, `Math.round` of an integer quotient,
    `String.prototype.trim`, `startsWith`, `parseInt`, and the decimal
    rendering of an integer. Numbers are integers throughout (NaN and
    fractions are not modelled). */
module Js {

  /** A property read from a JavaScript object: absent (`undefined`), `null`,
      or a value. */
  datatype Field<+T> = Undefined | Null | Present(value: T)

  /** The outcome of a call that may throw. */
  datatype Completion<+T> = Normal(value: T) | Throw

  datatype Option<+T> = None | Some(value: T)

  // ---------------------------------------------------------------------
  // Truthiness and `||` defaults

  /** A numeric property is falsy when absent, null or zero. */
  predicate NumTruthy(x: Field<int>) {
    x.Present? && x.value != 0
  }

  /** A string property is falsy when absent, null or empty. */
  predicate StrTruthy(x: Field<string>) {
    x.Present? && x.value != ""
  }

  /** `x || d` on a numeric property. */
  function NumOr(x: Field<int>, d: int): (r: int)
    ensures r == d || (x.Present? && r == x.value)
    ensures x.Present? && x.value != 0 ==> r == x.value
    // a falsy value (missing, null or 0) always gives the default
    ensures !NumTruthy(x) ==> r == d
    // with a zero default, a present zero and a missing value agree
    ensures d == 0 ==> r == (if x.Present? then x.value else 0)
  {
    if NumTruthy(x) then x.value else d
  }

  /** `x || d` on a string property. */
  function StrOr(x: Field<string>, d: string): (r: string)
    ensures r == d || (x.Present? && r == x.value)
    ensures x.Present? && x.value != "" ==> r == x.value
    ensures !StrTruthy(x) ==> r == d
    ensures d != "" ==> r != ""
    // with an empty default, an empty string and a missing value agree
    ensures d == "" ==> r == (if x.Present? then x.value else "")
  {
    if StrTruthy(x) then x.value else d
  }

  /** The property key an object uses for `acc[x]`: `String(x)`, so a
      missing value becomes `"undefined"` and null becomes `"null"`. */
  function PropertyKey(x: Field<string>): string {
    match x
    case Undefined => "undefined"
    case Null => "null"
    case Present(s) => s
  }

  // ---------------------------------------------------------------------
  // Loose relational comparison with a number literal

  /** `x <= k`: `null` converts to 0, `undefined` to NaN (which compares
      false). */
  predicate LooseLe(x: Field<int>, k: int) {
    match x
    case Undefined => false
    case Null => 0 <= k
    case Present(n) => n <= k
  }

  /** `x >= k`, with the same conversions as `LooseLe`. */
  predicate LooseGe(x: Field<int>, k: int) {
    match x
    case Undefined => false
    case Null => 0 >= k
    case Present(n) => n >= k
  }

  // ---------------------------------------------------------------------
  // Math.round(s / n)

  /** `Math.round(s / n)` for integers `s` and `n > 0`: the integer nearest
      to `s / n`, a half rounding up. */
  function RoundDiv(s: int, n: int): (r: int)
    requires n > 0
    ensures n * (2 * r - 1) <= 2 * s < n * (2 * r + 1)
  {
    var q := (2 * s + n) / (2 * n);
    var m := (2 * s + n) % (2 * n);
    assert 2 * s + n == 2 * n * q + m && 0 <= m < 2 * n;
    assert n * (2 * q - 1) == 2 * n * q - n;
    assert n * (2 * q + 1) == 2 * n * q + n;
    q
  }

  /** The rounding bracket determines the result: `RoundDiv` is the only
      integer within half of `s / n`, halves going up. */
  lemma RoundDivUnique(s: int, n: int, r: int)
    requires n > 0
    requires n * (2 * r - 1) <= 2 * s < n * (2 * r + 1)
    ensures RoundDiv(s, n) == r
  {
    var q := RoundDiv(s, n);
    MulCancelStrict(n, 2 * r - 1, 2 * q + 1);
    MulCancelStrict(n, 2 * q - 1, 2 * r + 1);
  }

  lemma MulCancelStrict(n: int, a: int, b: int)
    requires n > 0 && n * a < n * b
    ensures a < b
  {

  }

  lemma MulCancel(n: int, a: int, b: int)
    requires n > 0 && n * a <= n * b
    ensures a <= b
  {

  }

  /** Rounding the quotient of a sum that lies between `n * lo` and `n * hi`
      stays between `lo` and `hi`. */
  lemma RoundDivBetween(s: int, n: int, lo: int, hi: int)
    requires n > 0
    requires n * lo <= s <= n * hi
    ensures lo <= RoundDiv(s, n) <= hi
  {
    var r := RoundDiv(s, n);
    assert 2 * (n * hi) == n * (2 * hi);
    assert 2 * (n * lo) == n * (2 * lo);
    MulCancel(n, 2 * r - 1, 2 * hi);
    MulCancelStrict(n, 2 * lo, 2 * r + 1);
  }

  // ---------------------------------------------------------------------
  // Strings

  predicate StartsWith(s: string, prefix: string) {
    |prefix| <= |s| && s[..|prefix|] == prefix
  }

  /** The characters `String.prototype.trim` removes: the WhiteSpace
      (including every space separator) and LineTerminator productions of
      ECMAScript. */
  predicate IsWhitespace(c: char) {
    || c == '\t' || c == '\n' || c == '\U{000B}' || c == '\U{000C}'
    || c == '\r' || c == ' ' || c == '\U{00A0}' || c == '\U{1680}'
    || ('\U{2000}' <= c <= '\U{200A}')
    || c == '\U{2028}' || c == '\U{2029}' || c == '\U{202F}'
    || c == '\U{205F}' || c == '\U{3000}' || c == '\U{FEFF}'
  }

  predicate AllWhitespace(s: string) {
    forall i :: 0 <= i < |s| ==> IsWhitespace(s[i])
  }

  /** Drops leading whitespace. */
  function TrimStart(s: string): (r: string)
    ensures |r| <= |s| && r == s[|s| - |r|..]
    ensures AllWhitespace(s[..|s| - |r|])
    ensures r == [] || !IsWhitespace(r[0])
  {
    if |s| > 0 && IsWhitespace(s[0]) then
      var r := TrimStart(s[1..]);
      assert s[..|s| - |r|] == [s[0]] + s[1..][..|s[1..]| - |r|];
      r
    else s
  }

  /** Drops trailing whitespace. */
  function TrimEnd(s: string): (r: string)
    ensures |r| <= |s| && r == s[..|r|]
    ensures AllWhitespace(s[|r|..])
    ensures r == [] || !IsWhitespace(r[|r| - 1])
  {
    if |s| > 0 && IsWhitespace(s[|s| - 1]) then
      var r := TrimEnd(s[..|s| - 1]);
      assert s[|r|..] == s[..|s| - 1][|r|..] + [s[|s| - 1]];
      r
    else s
  }

  /** `s.trim()`: the infix of `s` left after removing whitespace at both
      ends; it starts `TrimmedOff(s)` characters into `s`. */
  function Trim(s: string): (r: string)
    ensures TrimmedOff(s) + |r| <= |s| && s[TrimmedOff(s)..TrimmedOff(s) + |r|] == r
    ensures AllWhitespace(s[..TrimmedOff(s)]) && AllWhitespace(s[TrimmedOff(s) + |r|..])
    ensures r == [] || (!IsWhitespace(r[0]) && !IsWhitespace(r[|r| - 1]))
    ensures r == [] <==> AllWhitespace(s)
  {
    var t := TrimStart(s);
    var r := TrimEnd(t);
    TrimInfix(s, |s| - |t|, t, r);
    TrimEmpty(s, |s| - |t|, t, r);
    r
  }

  /** How many leading characters `Trim` removes. */
  function TrimmedOff(s: string): nat {
    |s| - |TrimStart(s)|
  }

  lemma TrimInfix(s: string, a: nat, t: string, r: string)
    requires a <= |s| && t == s[a..] && |r| <= |t| && r == t[..|r|]
    ensures a + |r| <= |s| && s[a..a + |r|] == r
    ensures s[a + |r|..] == t[|r|..]
  {
  }

  lemma TrimEmpty(s: string, a: nat, t: string, r: string)
    requires a <= |s| && t == s[a..] && |r| <= |t| && r == t[..|r|]
    requires AllWhitespace(s[..a]) && AllWhitespace(t[|r|..])
    requires r == [] || !IsWhitespace(r[0])
    ensures r == [] <==> AllWhitespace(s)
  {
    if r == [] {
      forall i | 0 <= i < |s| ensures IsWhitespace(s[i]) {
        if i < a {
          assert s[..a][i] == s[i];
        } else {
          assert t[|r|..][i - a] == s[i];
        }
      }
    } else {
      assert s[a] == r[0];
    }
  }

  /** Trimming twice changes nothing. */
  lemma TrimIdempotent(s: string)
    ensures Trim(Trim(s)) == Trim(s)
  {
    var r := Trim(s);
    assert TrimStart(r) == r;
    assert TrimEnd(r) == r;
  }

  /** `s.split(sep)` for a one-character separator: the pieces between
      separators, empty pieces included. */
  function Split(s: string, sep: char): (parts: seq<string>)
    ensures |parts| >= 1
    ensures forall i :: 0 <= i < |parts| ==> sep !in parts[i]
  {
    if sep !in s then [s]
    else
      var i := IndexOf(s, sep);
      [s[..i]] + Split(s[i + 1..], sep)
  }

  function IndexOf(s: string, c: char): (i: nat)
    requires c in s
    ensures i < |s| && s[i] == c && c !in s[..i]
  {
    if s[0] == c then 0
    else
      var j := IndexOf(s[1..], c);
      assert s[..j + 1] == [s[0]] + s[1..][..j];
      j + 1
  }

  /** `parts.join(sep)`. */
  function Join(parts: seq<string>, sep: char): string
    requires |parts| >= 1
  {
    if |parts| == 1 then parts[0] else parts[0] + [sep] + Join(parts[1..], sep)
  }

  /** Splitting undoes joining, as long as no part contains the separator. */
  lemma {:induction false} SplitJoin(parts: seq<string>, sep: char)
    requires |parts| >= 1
    requires forall i :: 0 <= i < |parts| ==> sep !in parts[i]
    ensures Split(Join(parts, sep), sep) == parts
  {
    if |parts| > 1 {
      var a := parts[0];
      var rest := Join(parts[1..], sep);
      var s := a + [sep] + rest;
      assert s[|a|] == sep;
      assert s[..|a|] == a;
      IndexOfFirst(a, sep, rest);
      assert s[|a| + 1..] == rest;
      assert Join(parts, sep) == s;
      assert Split(s, sep) == [a] + Split(rest, sep);
      assert forall i :: 0 <= i < |parts[1..]| ==> parts[1..][i] == parts[i + 1];
      SplitJoin(parts[1..], sep);
      assert parts == [a] + parts[1..];
    }
  }

  lemma IndexOfFirst(a: string, sep: char, rest: string)
    requires sep !in a
    ensures sep in a + [sep] + rest && IndexOf(a + [sep] + rest, sep) == |a|
  {
    var s := a + [sep] + rest;
    assert s[|a|] == sep;
    assert s[..|a|] == a;
    assert forall j :: 0 <= j < |a| ==> s[j] == a[j] && s[j] != sep;
    assert forall j :: |a| < j <= |s| ==> s[..j][|a|] == sep;
  }

  // ---------------------------------------------------------------------
  // Decimal integers: rendering and parseInt

  predicate IsDigit(c: char) {
    '0' <= c <= '9'
  }

  predicate AllDigits(s: string) {
    forall i :: 0 <= i < |s| ==> IsDigit(s[i])
  }

  function DigitChar(d: nat): (c: char)
    requires d < 10
    ensures IsDigit(c)
  {
    ('0' as int + d) as char
  }

  function DigitValue(c: char): (d: nat)
    requires IsDigit(c)
    ensures d < 10 && DigitChar(d) == c
  {
    c as int - '0' as int
  }

  /** The decimal digits of `n`, without leading zeros. */
  function NatToString(n: nat): (r: string)
    ensures |r| > 0 && AllDigits(r)
    ensures r[0] == '0' ==> n == 0 && r == "0"
  {
    if n < 10 then [DigitChar(n)] else NatToString(n / 10) + [DigitChar(n % 10)]
  }

  /** How a number is rendered as text (React child, template literal). */
  function IntToString(n: int): (r: string)
    ensures |r| > 0 && (IsDigit(r[0]) || r[0] == '-')
  {
    if n < 0 then "-" + NatToString(-n) else NatToString(n)
  }

  /** The value of a string of decimal digits. */
  function DigitsValue(d: string): nat
    requires AllDigits(d)
  {
    if |d| == 0 then 0 else DigitsValue(d[..|d| - 1]) * 10 + DigitValue(d[|d| - 1])
  }

  /** The longest prefix of `s` made of decimal digits. */
  function DigitPrefix(s: string): (r: string)
    ensures |r| <= |s| && r == s[..|r|]
    ensures AllDigits(r)
    ensures |r| == |s| || !IsDigit(s[|r|])
  {
    if |s| > 0 && IsDigit(s[0]) then [s[0]] + DigitPrefix(s[1..]) else []
  }

  /** `parseInt(s)` in base 10: leading whitespace is skipped, then an
      optional sign and the longest run of digits are read; `None` is NaN. */
  function ParseInt(s: string): (r: Option<int>)
    // a blank string is NaN, and any number read needs a digit in `s`
    ensures AllWhitespace(s) ==> r.None?
    ensures r.Some? ==> exists i :: 0 <= i < |s| && IsDigit(s[i])
    ensures r.Some? && r.value < 0 ==> '-' in s
  {
    var t := TrimStart(s);
    var rest := if |t| > 0 && (t[0] == '-' || t[0] == '+') then t[1..] else t;
    assert |t| > 0 ==> t[0] == s[|s| - |t|];
    assert rest != [] ==> rest[0] == s[|s| - |rest|];
    ParseSigned(t)
  }

  function ParseSigned(t: string): Option<int> {
    var negative := |t| > 0 && t[0] == '-';
    var rest := if |t| > 0 && (t[0] == '-' || t[0] == '+') then t[1..] else t;
    var d := DigitPrefix(rest);
    var v: int := DigitsValue(d);
    if d == [] then None
    else if negative then Some(-v)
    else Some(v)
  }

  lemma {:induction false} DigitsValueOfNatToString(n: nat)
    ensures DigitsValue(NatToString(n)) == n
  {
    var s := NatToString(n);
    if n >= 10 {
      var p := NatToString(n / 10);
      assert s == p + [DigitChar(n % 10)];
      assert s[..|s| - 1] == p;
      DigitsValueOfNatToString(n / 10);
    }
  }

  lemma {:induction false} DigitPrefixOfDigits(d: string, t: string)
    requires AllDigits(d)
    requires t == [] || !IsDigit(t[0])
    ensures DigitPrefix(d + t) == d
  {
    if |d| > 0 {
      assert (d + t)[1..] == d[1..] + t;
      DigitPrefixOfDigits(d[1..], t);
      assert d == [d[0]] + d[1..];
    } else {
      assert d + t == t;
    }
  }

  lemma {:induction false} TrimStartKeeps(s: string)
    requires s == [] || !IsWhitespace(s[0])
    ensures TrimStart(s) == s
  {
  }

  lemma {:induction false} ParseSignedDigits(d: string, t: string, s: string, negative: bool)
    requires AllDigits(d) && d != []
    requires t == [] || !IsDigit(t[0])
    requires s == (if negative then "-" else "") + (d + t)
    ensures ParseSigned(s) == Some(if negative then -(DigitsValue(d) as int) else DigitsValue(d) as int)
  {
    var dt := d + t;
    DigitPrefixOfDigits(d, t);
    assert dt[0] == d[0] && IsDigit(dt[0]);
    if negative {
      assert s == ['-'] + dt;
      assert s[1..] == dt;
    } else {
      assert s == dt;
      assert s[0] != '-' && s[0] != '+';
    }
  }

  /** A digit or a minus sign is not whitespace. */
  lemma {:induction false} SignOrDigitNotWhitespace(c: char)
    requires IsDigit(c) || c == '-'
    ensures !IsWhitespace(c)
  {
  }

  /** Without leading whitespace `parseInt` reads the sign and digits
      directly. */
  lemma {:induction false} ParseIntUntrimmed(s: string)
    requires s != [] && (IsDigit(s[0]) || s[0] == '-')
    ensures ParseInt(s) == ParseSigned(s)
  {
    SignOrDigitNotWhitespace(s[0]);
    TrimStartKeeps(s);
  }

  /** A rendered integer is its sign followed by the digits of its size. */
  lemma {:induction false} IntToStringShape(n: int, t: string)
    ensures IntToString(n) + t
         == (if n < 0 then "-" else "") + (NatToString(if n < 0 then -n else n) + t)
  {
    if n < 0 {
      assert IntToString(n) + t == "-" + (NatToString(-n) + t);
    } else {
      assert IntToString(n) + t == "" + (NatToString(n) + t);
    }
  }

  /** `parseInt` reads back the decimal rendering of any integer, and stops
      at the first character that cannot continue the digits (so the
      integer part of `"12.5"` or `"3e2"` is what it returns). */
  lemma {:induction false} ParseIntOfIntToString(n: int, t: string)
    requires t == [] || !IsDigit(t[0])
    ensures ParseInt(IntToString(n) + t) == Some(n)
  {
    var s := IntToString(n) + t;
    var m: nat := if n < 0 then -n else n;
    var digits := NatToString(m);
    DigitsValueOfNatToString(m);
    IntToStringShape(n, t);
    ParseSignedDigits(digits, t, s, n < 0);
    assert s[0] == (if n < 0 then '-' else digits[0]);
    ParseIntUntrimmed(s);
  }

  /** A plain run of digits reads as its decimal value. */
  lemma {:induction false} ParseIntOfDigits(s: string)
    requires s != [] && AllDigits(s)
    ensures ParseInt(s) == Some(DigitsValue(s) as int)
  {
    TrimStartKeeps(s);
    assert s + [] == s;
    DigitPrefixOfDigits(s, []);
  }

  /** `parseInt` of a string with no digit after the optional sign is
      NaN. */
  lemma ParseIntNoDigits(s: string)
    requires forall i :: 0 <= i < |s| ==> !IsDigit(s[i])
    ensures ParseInt(s) == None
  {
    var t := TrimStart(s);
    var rest := if |t| > 0 && (t[0] == '-' || t[0] == '+') then t[1..] else t;
    if |rest| > 0 {
      assert rest[0] in s;
    }
  }
}

=== FILE: keyword_cells.dfy ===
/** Cells shared by the two keyword tables (the dashboard's keyword
    performance card and the keyword page's table): the trend icon and the
    rank text. */
module KeywordCells {
  import opened Js

  datatype Icon = TrendingUp | TrendingDown | Minus

  /** `getTrendIcon(trend)`: a strict `switch` on the trend, with every value
      other than `"up"` and `"down"` (missing and null included) showing the
      neutral icon. */
  function TrendIcon(trend: Field<string>): (i: Icon)
    ensures i == TrendingUp <==> trend == Present("up")
    ensures i == TrendingDown <==> trend == Present("down")
  {
    match trend
    case Present("up") => TrendingUp
    case Present("down") => TrendingDown
    case _ => Minus
  }

  /** `current_rank || 'N/A'`, as rendered: the rank in decimal, or `N/A`
      when it is missing, null or 0. */
  function RankText(rank: Field<int>): (r: string)
    ensures r == "N/A" <==> !NumTruthy(rank)
    ensures NumTruthy(rank) ==> r == IntToString(rank.value)
  {
    if NumTruthy(rank) then IntToString(rank.value) else "N/A"
  }

  /** A shown rank reads back as the stored rank, and "N/A" reads as no
      number at all. */
  lemma RankTextReadsBack(rank: Field<int>)
    ensures NumTruthy(rank) ==> ParseInt(RankText(rank)) == Some(rank.value)
    ensures !NumTruthy(rank) ==> ParseInt(RankText(rank)) == None
  {
    if NumTruthy(rank) {
      ParseIntOfIntToString(rank.value, "");
      assert IntToString(rank.value) + "" == IntToString(rank.value);
    } else {
      ParseIntNoDigits("N/A");
    }
  }

  /** A null rank and a rank of 0 look the same as a missing one. */
  lemma FalsyRanksLookMissing()
    ensures RankText(Null) == RankText(Present(0)) == RankText(Undefined) == "N/A"
  {
  }
}

=== FILE: keyword_form.dfy ===
/** The manual "Add New Keyword" form: five string-valued inputs, a change
    handler that replaces one of them, and a submit handler that converts the
    two rank inputs to numbers. */
module KeywordForm {
  import opened Js

  datatype FormData = FormData(
    keyword: string,
    website_id: string,
    current_rank: string,
    target_rank: string,
    category: string)

  /** The names `handleChange` is called with. */
  datatype FieldName = KeywordField | WebsiteField | CurrentRankField | TargetRankField | CategoryField

  const Initial := FormData("", "", "", "10", "primary")

  function Get(d: FormData, f: FieldName): string {
    match f
    case KeywordField => d.keyword
    case WebsiteField => d.website_id
    case CurrentRankField => d.current_rank
    case TargetRankField => d.target_rank
    case CategoryField => d.category
  }

  /** `{ ...prev, [field]: value }`: the named input takes the new value and
      every other input keeps its own. */
  function HandleChange(d: FormData, f: FieldName, value: string): (r: FormData)
    ensures Get(r, f) == value
    ensures forall g :: g != f ==> Get(r, g) == Get(d, g)
  {
    match f
    case KeywordField => d.(keyword := value)
    case WebsiteField => d.(website_id := value)
    case CurrentRankField => d.(current_rank := value)
    case TargetRankField => d.(target_rank := value)
    case CategoryField => d.(category := value)
  }

  /** Form data is determined by what `Get` reads. */
  lemma FormDataByFields(a: FormData, b: FormData)
    requires forall f :: Get(a, f) == Get(b, f)
    ensures a == b
  {
    assert Get(a, KeywordField) == Get(b, KeywordField);
    assert Get(a, WebsiteField) == Get(b, WebsiteField);
    assert Get(a, CurrentRankField) == Get(b, CurrentRankField);
    assert Get(a, TargetRankField) == Get(b, TargetRankField);
    assert Get(a, CategoryField) == Get(b, CategoryField);
  }

  /** Changing an input to the value it already has changes nothing, and a
      later change of the same input overrides an earlier one. */
  lemma HandleChangeLaws(d: FormData, f: FieldName, v: string, w: string)
    ensures HandleChange(d, f, Get(d, f)) == d
    ensures HandleChange(HandleChange(d, f, v), f, w) == HandleChange(d, f, w)
  {
    FormDataByFields(HandleChange(d, f, Get(d, f)), d);
    FormDataByFields(HandleChange(HandleChange(d, f, v), f, w), HandleChange(d, f, w));
  }

  /** A submitted rank: null for an empty input, NaN when `parseInt` finds no
      digits, or an integer. */
  datatype Rank = NullRank | NaNRank | IntRank(n: int)

  /** `s ? parseInt(s) : null`. */
  function ConvertRank(s: string): (r: Rank)
    ensures r == NullRank <==> s == ""
    ensures s != "" ==> (r == NaNRank <==> ParseInt(s).None?)
    ensures r.IntRank? ==> ParseInt(s) == Some(r.n)
  {
    if s == "" then NullRank
    else match ParseInt(s)
      case None => NaNRank
      case Some(n) => IntRank(n)
  }

  /** The record handed to `onSubmit`. */
  datatype Submitted = Submitted(
    keyword: string,
    website_id: string,
    current_rank: Rank,
    target_rank: Rank,
    category: string)

  function HandleSubmit(d: FormData): (s: Submitted)
    // the text inputs pass through unchanged
    ensures s.keyword == d.keyword && s.website_id == d.website_id && s.category == d.category
    // an empty rank input becomes null, not the default target of 10
    ensures s.current_rank == NullRank <==> d.current_rank == ""
    ensures s.target_rank == NullRank <==> d.target_rank == ""
    ensures s.current_rank == ConvertRank(d.current_rank) && s.target_rank == ConvertRank(d.target_rank)
  {
    Submitted(d.keyword, d.website_id, ConvertRank(d.current_rank), ConvertRank(d.target_rank), d.category)
  }

  /** Submitting the untouched form sends no current rank, a target of 10
      and the `primary` category. */
  lemma SubmitInitial()
    ensures HandleSubmit(Initial) == Submitted("", "", NullRank, IntRank(10), "primary")
  {
    assert NatToString(1) == "1";
    assert IntToString(10) == "10";
    ParseIntOfIntToString(10, "");
    assert "10" + "" == "10";
    assert ConvertRank("10") == IntRank(10);
  }

  /** A rank typed as a decimal number is submitted as that number. */
  lemma {:induction false} SubmitTypedRanks(d: FormData, current: int, target: int)
    ensures var e := HandleChange(HandleChange(d, CurrentRankField, IntToString(current)),
                                  TargetRankField, IntToString(target));
            HandleSubmit(e).current_rank == IntRank(current)
            && HandleSubmit(e).target_rank == IntRank(target)
  {
    ParseIntOfIntToString(current, "");
    ParseIntOfIntToString(target, "");
    assert IntToString(current) + "" == IntToString(current);
    assert IntToString(target) + "" == IntToString(target);
  }

  /** A rank input holding only spaces is not empty, so it is parsed, and
      finds no digits. */
  lemma BlankRankIsNaN()
    ensures ConvertRank(" ") == NaNRank
  {
    ParseIntNoDigits(" ");
  }
}

=== FILE: keyword_insights.dfy ===
/** The keyword page's insights card: the top-ten count, the average
    difficulty, and a pie chart of keywords per category. */
module KeywordInsights {
  import opened Js
  import opened Entities
  import opened Tally
  import Metrics

  /** The object key each keyword is counted under: `String(kw.category)`. */
  function CategoryKeys(keywords: seq<Keyword>): (ks: seq<string>)
    ensures |ks| == |keywords|
    ensures forall i :: 0 <= i < |ks| ==> ks[i] == PropertyKey(keywords[i].category)
  {
    seq(|keywords|, i requires 0 <= i < |keywords| => PropertyKey(keywords[i].category))
  }

  /** `categoryCounts`, as its entry list: one entry per distinct key in
      first-seen order, each counting the keywords filed under it. */
  function CategoryCounts(keywords: seq<Keyword>): (r: seq<Entry>)
    ensures DistinctKeys(r) && Positive(r)
    ensures Total(r) == |keywords|
    ensures forall k :: k in Keys(r) <==> exists i :: 0 <= i < |keywords| && PropertyKey(keywords[i].category) == k
    ensures forall k :: CountOf(r, k) == multiset(CategoryKeys(keywords))[k]
    ensures forall i :: 0 <= i < |r| ==> r[i].key in CategoryKeys(keywords)
    ensures forall i, j :: 0 <= i < j < |r| ==>
              FirstIndex(CategoryKeys(keywords), r[i].key) < FirstIndex(CategoryKeys(keywords), r[j].key)
  {
    var ks := CategoryKeys(keywords);
    var r := CountBy(ks);
    forall k | k in Keys(r)
      ensures exists i :: 0 <= i < |keywords| && PropertyKey(keywords[i].category) == k
    {
      var i :| 0 <= i < |ks| && ks[i] == k;
    }
    assert forall i :: 0 <= i < |r| ==> r[i].key == Keys(r)[i];
    r
  }

  datatype Slice = Slice(name: string, value: nat)

  /** `pieData`: the entries as slices, in the same order. */
  function PieData(keywords: seq<Keyword>): (r: seq<Slice>)
    ensures |r| == |CategoryCounts(keywords)|
    ensures forall i :: 0 <= i < |r| ==>
              r[i].name == CategoryCounts(keywords)[i].key && r[i].value == CategoryCounts(keywords)[i].count
    ensures forall i :: 0 <= i < |r| ==> r[i].value >= 1
    ensures forall i :: 0 <= i < |r| ==> r[i].value == multiset(CategoryKeys(keywords))[r[i].name]
    ensures forall i, j :: 0 <= i < j < |r| ==> r[i].name != r[j].name
  {
    var es := CategoryCounts(keywords);
    forall i | 0 <= i < |es|
      ensures es[i].count == multiset(CategoryKeys(keywords))[es[i].key]
    {
      CountOfEntry(es, i);
    }
    seq(|es|, i requires 0 <= i < |es| => Slice(es[i].key, es[i].count))
  }

  const Palette: seq<string> := ["#3B82F6", "#8B5CF6", "#10B981", "#F59E0B"]

  /** `COLORS[index % COLORS.length]`. */
  function SliceColor(index: nat): (c: string)
    ensures c in Palette
    ensures c == Palette[index % 4]
  {
    Palette[index % |Palette|]
  }

  /** Neighbouring slices never share a colour, and the colours repeat every
      four slices. */
  lemma SliceColors(index: nat)
    ensures SliceColor(index) != SliceColor(index + 1)
    ensures SliceColor(index) == SliceColor(index + 4)
  {
    assert (index + 1) % 4 == (index % 4 + 1) % 4;
  }

  /** A keyword without a category and one filed under the literal name
      `"undefined"` are counted under the same key; a null category is
      counted under `"null"`. */
  lemma MissingCategoryKey(a: Keyword, b: Keyword, c: Keyword)
    requires a.category == Undefined && b.category == Present("undefined") && c.category == Null
    ensures CountOf(CategoryCounts([a, b, c]), "undefined") == 2
    ensures CountOf(CategoryCounts([a, b, c]), "null") == 1
  {
    var ks := CategoryKeys([a, b, c]);
    assert ks == ["undefined", "undefined", "null"];
    assert multiset(ks) == multiset{"undefined", "undefined", "null"};
  }

  /** Two `primary` keywords and one `long-tail` keyword give two entries,
      `primary` first. */
  lemma PrimaryLongTailExample(a: Keyword, b: Keyword, c: Keyword)
    requires a.category == b.category == Present("primary") && c.category == Present("long-tail")
    ensures CategoryCounts([a, b, c]) == [Entry("primary", 2), Entry("long-tail", 1)]
  {
    var ks := CategoryKeys([a, b, c]);
    assert ks == ["primary", "primary", "long-tail"];
    CountPrimaryLongTail();
  }

  lemma CountPrimaryLongTail()
    ensures CountBy(["primary", "primary", "long-tail"]) == [Entry("primary", 2), Entry("long-tail", 1)]
  {
    var one: seq<string> := ["primary"];
    var two: seq<string> := ["primary", "primary"];
    var three: seq<string> := ["primary", "primary", "long-tail"];
    assert one[..0] == [];
    assert CountBy(one) == Bump([], "primary") == [Entry("primary", 1)];
    assert two[..1] == one;
    assert CountBy(two) == Bump([Entry("primary", 1)], "primary") == [Entry("primary", 2)];
    assert three[..2] == two;
    assert "primary" != "long-tail";
    var es := [Entry("primary", 2)];
    assert es[1..] == [];
    assert Bump(es, "long-tail") == [Entry("primary", 2)] + Bump([], "long-tail");
    assert CountBy(three) == Bump(es, "long-tail");
  }

  /** What the card shows. */
  datatype View = View(topTen: nat, averageDifficulty: int, slices: seq<Slice>)

  function Render(keywords: seq<Keyword>): (v: View)
    ensures v.topTen <= |keywords|
    ensures v.topTen == Metrics.TopTenCount(keywords)
    ensures v.averageDifficulty == Metrics.AverageDifficulty(keywords)
    ensures v.slices == PieData(keywords)
  {
    View(Metrics.TopTenCount(keywords), Metrics.AverageDifficulty(keywords), PieData(keywords))
  }
}

=== FILE: keyword_performance.dfy ===
/** The dashboard's keyword performance table: the first five keywords with
    their rank, volume, difficulty and trend. */
module KeywordPerformance {
  import opened Js
  import opened Entities
  import opened Lists
  import opened KeywordCells

  datatype Row = Row(keyword: Field<string>, rank: string, volume: Field<int>, difficulty: Field<int>, trend: Icon)

  /** One table row. */
  function RowOf(k: Keyword): (r: Row)
    ensures r.keyword == k.keyword && r.volume == k.search_volume && r.difficulty == k.difficulty
    ensures r.rank == "N/A" <==> !NumTruthy(k.current_rank)
    ensures r.trend == TrendingUp <==> k.trend == Present("up")
    ensures r.trend == TrendingDown <==> k.trend == Present("down")
  {
    Row(k.keyword, RankText(k.current_rank), k.search_volume, k.difficulty, TrendIcon(k.trend))
  }

  /** The table body: five placeholder rows, a single "no keywords" row, or
      the rows of the first five keywords. */
  datatype Body = Placeholders(count: nat) | NoKeywords | Rows(rows: seq<Row>)

  function Render(keywords: seq<Keyword>, isLoading: bool): (b: Body)
    ensures isLoading <==> b == Placeholders(5)
    ensures b.NoKeywords? <==> !isLoading && |keywords| == 0
    ensures b.Rows? ==> |b.rows| == (if |keywords| < 5 then |keywords| else 5) && |b.rows| > 0
    ensures b.Rows? ==> forall i :: 0 <= i < |b.rows| ==> b.rows[i] == RowOf(keywords[i])
  {
    if isLoading then Placeholders(5)
    else if |keywords| == 0 then NoKeywords
    else
      var shown := Take(keywords, 5);
      Rows(seq(|shown|, i requires 0 <= i < |shown| => RowOf(shown[i])))
  }
}

=== FILE: keyword_table.dfy ===
/** The keyword page's table: every keyword, with a category badge coloured
    from a fixed table, its rank and its trend. */
module KeywordTable {
  import opened Js
  import opened Entities
  import opened KeywordCells

  /** The four categories the colour table defines. */
  predicate KnownCategory(name: string) {
    name == "primary" || name == "secondary" || name == "long-tail" || name == "competitor"
  }

  /** `categoryColors[keyword.category]`: a class for the four known
      categories, none for anything else (a missing category is looked up
      under `"undefined"`, a null one under `"null"`). */
  function CategoryClass(category: Field<string>): (c: Option<string>)
    ensures c.Some? <==> category.Present? && KnownCategory(category.value)
  {
    match PropertyKey(category)
    case "primary" => Some("bg-blue-100 text-blue-800")
    case "secondary" => Some("bg-purple-100 text-purple-800")
    case "long-tail" => Some("bg-green-100 text-green-800")
    case "competitor" => Some("bg-orange-100 text-orange-800")
    case _ => None
  }

  /** Different known categories get different badge classes. */
  lemma CategoryClassesDistinct(a: string, b: string)
    requires KnownCategory(a) && KnownCategory(b) && a != b
    ensures CategoryClass(Present(a)) != CategoryClass(Present(b))
  {
  }

  datatype Row = Row(keyword: Field<string>, category: Field<string>, badge: Option<string>,
                     volume: Field<int>, difficulty: Field<int>, rank: string, trend: Icon)

  function RowOf(k: Keyword): (r: Row)
    ensures r.keyword == k.keyword && r.category == k.category
    ensures r.volume == k.search_volume && r.difficulty == k.difficulty
    ensures r.badge.Some? <==> k.category.Present? && KnownCategory(k.category.value)
    ensures r.rank == "N/A" <==> !NumTruthy(k.current_rank)
    ensures r.trend == TrendingUp <==> k.trend == Present("up")
    ensures r.trend == TrendingDown <==> k.trend == Present("down")
  {
    Row(k.keyword, k.category, CategoryClass(k.category), k.search_volume, k.difficulty,
        RankText(k.current_rank), TrendIcon(k.trend))
  }

  /** Five placeholder rows while loading; otherwise one row per keyword, in
      order and untruncated (an empty list shows no rows). */
  datatype Body = Placeholders(count: nat) | Rows(rows: seq<Row>)

  function Render(keywords: seq<Keyword>, isLoading: bool): (b: Body)
    ensures isLoading <==> b == Placeholders(5)
    ensures !isLoading ==> b.Rows? && |b.rows| == |keywords|
    ensures b.Rows? ==> forall i :: 0 <= i < |b.rows| ==> b.rows[i] == RowOf(keywords[i])
  {
    if isLoading then Placeholders(5)
    else Rows(seq(|keywords|, i requires 0 <= i < |keywords| => RowOf(keywords[i])))
  }
}

=== FILE: keywords.dfy ===
/** The keyword page's requests: loading keywords and websites, adding a
    keyword from the form, and keyword research through the language model,
    which persists one keyword record per suggestion. As on the analysis
    page, the model call and the store calls are parameters. */
module Keywords {
  import opened Js
  import opened Entities
  import Store
  import AnalysisForm

  /** One suggestion of the research response. */
  datatype ResearchItem = ResearchItem(
    keyword: Field<string>,
    search_volume: Field<int>,
    difficulty: Field<int>,
    category: Field<string>,
    explanation: Field<string>)

  datatype ResearchResponse = ResearchResponse(keywords: Field<seq<ResearchItem>>)

  /** The page state the requests touch. */
  datatype Page = Page(
    keywords: seq<Keyword>,
    websites: seq<Website>,
    isLoading: bool,
    showForm: bool,
    isResearching: bool)

  /** The initial state: nothing listed, loading until the first load settles. */
  const Initial := Page([], [], true, false, false)

  /** `loadData`: both lists are replaced when the two store queries
      succeed; on failure the previous lists stay. Loading ends either way. */
  function LoadData(p: Page, listed: Completion<(seq<Keyword>, seq<Website>)>): (q: Page)
    ensures !q.isLoading
    ensures listed.Normal? ==> q.keywords == listed.value.0 && q.websites == listed.value.1
    ensures listed.Throw? ==> q.keywords == p.keywords && q.websites == p.websites
    ensures q.showForm == p.showForm && q.isResearching == p.isResearching
  {
    match listed
    case Normal((ks, ws)) => p.(keywords := ks, websites := ws, isLoading := false)
    case Throw => p.(isLoading := false)
  }

  /** The "Add Keyword" button toggles the form. */
  function ToggleForm(p: Page): (q: Page)
    ensures q.showForm != p.showForm
    ensures q == p.(showForm := q.showForm)
  {
    p.(showForm := !p.showForm)
  }

  lemma ToggleFormTwice(p: Page)
    ensures ToggleForm(ToggleForm(p)) == p
  {
  }

  /** The outcome of `handleAddKeyword(data)`: the records written, whether
      a reload was started, and whether the form is still shown. */
  datatype AddRun<T> = AddRun(written: seq<T>, reloaded: bool, showForm: bool)

  /** A successful write reloads the lists and closes the form; a failed one
      writes nothing and leaves the form as it was. */
  function AddKeyword<T>(showForm: bool, data: T, write: Completion<()>): (run: AddRun<T>)
    ensures run.written == (if write.Normal? then [data] else [])
    ensures run.reloaded <==> write.Normal?
    ensures run.showForm == (write.Throw? && showForm)
  {
    if write.Normal? then AddRun([data], true, false) else AddRun([], false, showForm)
  }

  /** The record created for one suggestion: not yet ranked, aiming for the
      first page, stable, and filed as `secondary` unless a category was
      given. The explanation is dropped and no website is linked. */
  function Researched(item: ResearchItem): (k: Keyword)
    ensures k.current_rank == Null && k.target_rank == Present(10) && k.trend == Present("stable")
    ensures k.keyword == item.keyword && k.search_volume == item.search_volume
    ensures k.difficulty == item.difficulty
    ensures k.website_id == Undefined
    ensures k.category == Present(if StrTruthy(item.category) then item.category.value else "secondary")
  {
    Keyword(item.keyword, Undefined, Null, Present(10), item.search_volume, item.difficulty,
            Present(StrOr(item.category, "secondary")), Present("stable"))
  }

  /** The records to create, one per suggestion in response order; none
      when `keywords` is missing or null. */
  function ResearchedAll(keywords: Field<seq<ResearchItem>>): (r: seq<Keyword>)
    ensures |r| == (if keywords.Present? then |keywords.value| else 0)
    ensures forall i :: 0 <= i < |r| ==> r[i] == Researched(keywords.value[i])
  {
    if keywords.Present? then
      seq(|keywords.value|, i requires 0 <= i < |keywords.value| => Researched(keywords.value[i]))
    else []
  }

  /** The outcome of one research request. */
  datatype ResearchRun = ResearchRun(created: seq<Keyword>, reloaded: bool, isResearching: bool)

  /** `researchKeywords(seed)`: `llm` is the model's answer (or that it
      threw) and `failAt` the position of the first keyword write that
      throws. */
  function ResearchKeywords(llm: Completion<ResearchResponse>, failAt: Option<nat>): (run: ResearchRun)
    ensures !run.isResearching
    // the records written are a prefix of the suggestions' records
    ensures llm.Throw? ==> run.created == []
    ensures llm.Normal? ==>
              |run.created| <= |ResearchedAll(llm.value.keywords)|
              && run.created == ResearchedAll(llm.value.keywords)[..|run.created|]
    // the lists are reloaded exactly when every write of a present list went through
    ensures run.reloaded <==>
              llm.Normal? && llm.value.keywords.Present?
              && (failAt.None? || failAt.value >= |llm.value.keywords.value|)
    ensures run.reloaded ==> run.created == ResearchedAll(llm.value.keywords)
    // a write that throws part-way leaves exactly the records before it
    ensures (llm.Normal? && llm.value.keywords.Present? && failAt.Some?
             && failAt.value < |llm.value.keywords.value|) ==> |run.created| == failAt.value
  {
    match llm
    case Throw => ResearchRun([], false, false)
    case Normal(response) =>
      if response.keywords.Present? then
        var batch := Store.WriteInOrder(ResearchedAll(response.keywords), failAt);
        ResearchRun(batch.written, batch.completed, false)
      else ResearchRun([], false, false)
  }

  /** Every keyword a research request creates has no rank yet. */
  lemma ResearchedUnranked(llm: Completion<ResearchResponse>, failAt: Option<nat>, i: nat)
    requires i < |ResearchKeywords(llm, failAt).created|
    ensures ResearchKeywords(llm, failAt).created[i].current_rank == Null
    ensures ResearchKeywords(llm, failAt).created[i].category.value != ""
  {
    var run := ResearchKeywords(llm, failAt);
    assert run.created[i] == ResearchedAll(llm.value.keywords)[i];
  }

  /** The research form's submit: the trimmed seed is passed on and the
      input cleared, or nothing happens when the seed is blank. */
  datatype ResearchSubmission = ResearchSubmission(call: Option<string>, seed: string)

  function ResearchSubmit(seed: string): (s: ResearchSubmission)
    ensures s.call.Some? <==> !AllWhitespace(seed)
    ensures s.call.Some? ==> s.call.value == Trim(seed) && s.seed == ""
    ensures s.call.None? ==> s.seed == seed
  {
    var t := Trim(seed);
    if t != "" then ResearchSubmission(Some(t), "") else ResearchSubmission(None, seed)
  }

  /** The research button: disabled for a blank seed or while researching. */
  function ResearchDisabled(seed: string, isLoading: bool): (disabled: bool)
    ensures disabled <==> AllWhitespace(seed) || isLoading
  {
    Trim(seed) == "" || isLoading
  }

  /** The research form guards exactly like the analysis form: the same
      argument is passed on and the same condition disables the button. */
  lemma ResearchFormMatchesAnalysisForm(seed: string, isLoading: bool)
    ensures ResearchSubmit(seed).call == AnalysisForm.Submit(seed)
    ensures ResearchDisabled(seed, isLoading) == AnalysisForm.SubmitDisabled(seed, isLoading)
  {
  }

  /** A cleared form cannot submit again until something is typed. */
  lemma ClearedFormIsDisabled(seed: string)
    requires ResearchSubmit(seed).call.Some?
    ensures ResearchDisabled(ResearchSubmit(seed).seed, false)
    ensures ResearchSubmit(ResearchSubmit(seed).seed).call.None?
  {
  }
}

=== FILE: lists.dfy ===
/** List operations the views apply to fetched records: `Array.prototype.filter`,
    `slice(0, n)`, summing with `reduce`, and the rounded mean
    `Math.round(sum / length)` guarded by an emptiness test. */
module Lists {
  import opened Js

  /** `s.filter(p)`: the elements satisfying `p`, in their original order. */
  function Filter<T(!new)>(s: seq<T>, p: T -> bool): (r: seq<T>)
    ensures |r| <= |s|
    ensures forall i :: 0 <= i < |r| ==> p(r[i])
    ensures forall x :: multiset(r)[x] == if p(x) then multiset(s)[x] else 0
  {
    if |s| == 0 then []
    else
      assert s == [s[0]] + s[1..];
      (if p(s[0]) then [s[0]] else []) + Filter(s[1..], p)
  }

  /** Filtering distributes over concatenation, so the relative order of
      the kept elements is the order they had in the input. */
  lemma {:induction false} FilterAppend<T(!new)>(a: seq<T>, b: seq<T>, p: T -> bool)
    ensures Filter(a + b, p) == Filter(a, p) + Filter(b, p)
  {
    if |a| == 0 {
      assert a + b == b;
    } else {
      var head := if p(a[0]) then [a[0]] else [];
      assert a + b == [a[0]] + (a[1..] + b);
      FilterCons(a[0], a[1..] + b, p);
      FilterAppend(a[1..], b, p);
      ConcatAssoc(head, Filter(a[1..], p), Filter(b, p));
    }
  }

  lemma ConcatAssoc<T>(a: seq<T>, b: seq<T>, c: seq<T>)
    ensures a + (b + c) == (a + b) + c
  {
  }

  lemma FilterCons<T(!new)>(x: T, s: seq<T>, p: T -> bool)
    ensures Filter([x] + s, p) == (if p(x) then [x] else []) + Filter(s, p)
  {
    assert ([x] + s)[1..] == s;
  }

  /** A filter that keeps everything is the identity. */
  lemma {:induction false} FilterAll<T(!new)>(s: seq<T>, p: T -> bool)
    requires forall i :: 0 <= i < |s| ==> p(s[i])
    ensures Filter(s, p) == s
  {
    if |s| > 0 {
      FilterAll(s[1..], p);
    }
  }

  /** Two filters with mutually exclusive predicates keep at most as many
      elements as the list holds, and exactly as many when the predicates
      are complementary. */
  lemma {:induction false} FilterDisjointLength<T(!new)>(s: seq<T>, p: T -> bool, q: T -> bool)
    requires forall x :: !(p(x) && q(x))
    ensures |Filter(s, p)| + |Filter(s, q)| <= |s|
    ensures (forall x :: p(x) || q(x)) ==> |Filter(s, p)| + |Filter(s, q)| == |s|
  {
    if |s| > 0 {
      FilterDisjointLength(s[1..], p, q);
    }
  }

  /** A filter keeps nothing exactly when no element satisfies it. */
  lemma FilterEmptyIff<T(!new)>(s: seq<T>, p: T -> bool)
    ensures |Filter(s, p)| == 0 <==> forall i :: 0 <= i < |s| ==> !p(s[i])
  {
    var r := Filter(s, p);
    forall i | 0 <= i < |s| && p(s[i])
      ensures |r| > 0
    {
      assert multiset(s)[s[i]] > 0;
      assert multiset(r)[s[i]] > 0;
    }
    if |r| > 0 {
      assert r[0] in multiset(r);
      assert r[0] in multiset(s);
    }
  }

  /** `s.slice(0, n)`. */
  function Take<T(!new)>(s: seq<T>, n: nat): (r: seq<T>)
    ensures |r| == if n < |s| then n else |s|
    ensures r == s[..|r|]
  {
    if n < |s| then s[..n] else s
  }

  /** `s.reduce((sum, x) => sum + x, 0)`. */
  function Sum(s: seq<int>): int {
    if |s| == 0 then 0 else Sum(s[..|s| - 1]) + s[|s| - 1]
  }

  function Min(s: seq<int>): (m: int)
    requires |s| > 0
    ensures forall i :: 0 <= i < |s| ==> m <= s[i]
    ensures exists i :: 0 <= i < |s| && m == s[i]
  {
    if |s| == 1 then s[0]
    else
      var m := Min(s[1..]);
      assert s[1..][0] == s[1];
      if s[0] <= m then s[0] else m
  }

  function Max(s: seq<int>): (m: int)
    requires |s| > 0
    ensures forall i :: 0 <= i < |s| ==> s[i] <= m
    ensures exists i :: 0 <= i < |s| && m == s[i]
  {
    if |s| == 1 then s[0]
    else
      var m := Max(s[1..]);
      assert s[1..][0] == s[1];
      if s[0] >= m then s[0] else m
  }

  /** A sum of `n` values lies between `n` times any lower bound and `n`
      times any upper bound of the values. */
  lemma {:induction false} SumBounds(s: seq<int>, lo: int, hi: int)
    requires forall i :: 0 <= i < |s| ==> lo <= s[i] <= hi
    ensures |s| * lo <= Sum(s) <= |s| * hi
  {
    if |s| > 0 {
      var p := s[..|s| - 1];
      assert forall i :: 0 <= i < |p| ==> p[i] == s[i];
      SumBounds(p, lo, hi);
      assert |s| * lo == |p| * lo + lo;
      assert |s| * hi == |p| * hi + hi;
    }
  }

  /** `s.length > 0 ? Math.round(sum / s.length) : 0`: 0 for an empty list,
      otherwise the mean rounded half up, which lies between the smallest
      and the largest value. */
  function RoundedMean(s: seq<int>): (r: int)
    ensures |s| == 0 ==> r == 0
    ensures |s| > 0 ==> |s| * (2 * r - 1) <= 2 * Sum(s) < |s| * (2 * r + 1)
    ensures |s| > 0 ==> Min(s) <= r <= Max(s)
  {
    if |s| > 0 then
      SumBounds(s, Min(s), Max(s));
      RoundDivBetween(Sum(s), |s|, Min(s), Max(s));
      RoundDiv(Sum(s), |s|)
    else 0
  }

  /** Every value within a range keeps the rounded mean within it. */
  lemma RoundedMeanWithin(s: seq<int>, lo: int, hi: int)
    requires forall i :: 0 <= i < |s| ==> lo <= s[i] <= hi
    requires lo <= 0 <= hi
    ensures lo <= RoundedMean(s) <= hi
  {
    if |s| > 0 {
      assert lo <= s[0] <= hi;
    }
  }
}

=== FILE: metrics.dfy ===
/** The aggregates several views compute from the same lists: the rounded
    average SEO score (dashboard and reports), the rounded average keyword
    difficulty (keyword insights), the number of critical issues (dashboard)
    and the number of keywords ranked in the top ten (dashboard and keyword
    insights). */
module Metrics {
  import opened Js
  import opened Entities
  import opened Lists

  /** `site.seo_score || 0` for every website, in order. */
  function SeoScores(websites: seq<Website>): (r: seq<int>)
    ensures |r| == |websites|
    ensures forall i :: 0 <= i < |r| ==> r[i] == SeoScore(websites[i])
  {
    seq(|websites|, i requires 0 <= i < |websites| => SeoScore(websites[i]))
  }

  /** `websites.length > 0 ? Math.round(total / websites.length) : 0`, a
      missing, null or zero score counting as 0. */
  function AverageSeoScore(websites: seq<Website>): (r: int)
    ensures |websites| == 0 ==> r == 0
    ensures |websites| > 0 ==>
              |websites| * (2 * r - 1) <= 2 * Sum(SeoScores(websites)) < |websites| * (2 * r + 1)
    ensures |websites| > 0 ==> Min(SeoScores(websites)) <= r <= Max(SeoScores(websites))
  {
    RoundedMean(SeoScores(websites))
  }

  /** Scores on the 0-100 scale give an average on that scale. */
  lemma AverageSeoScoreInRange(websites: seq<Website>)
    requires forall i :: 0 <= i < |websites| ==> 0 <= SeoScore(websites[i]) <= 100
    ensures 0 <= AverageSeoScore(websites) <= 100
  {
    RoundedMeanWithin(SeoScores(websites), 0, 100);
  }

  /** `k.difficulty || 0` for every keyword, in order. */
  function Difficulties(keywords: seq<Keyword>): (r: seq<int>)
    ensures |r| == |keywords|
    ensures forall i :: 0 <= i < |r| ==> r[i] == NumOr(keywords[i].difficulty, 0)
  {
    seq(|keywords|, i requires 0 <= i < |keywords| => NumOr(keywords[i].difficulty, 0))
  }

  /** The keyword insights' average difficulty, rounded the same way. */
  function AverageDifficulty(keywords: seq<Keyword>): (r: int)
    ensures |keywords| == 0 ==> r == 0
    ensures |keywords| > 0 ==>
              |keywords| * (2 * r - 1) <= 2 * Sum(Difficulties(keywords)) < |keywords| * (2 * r + 1)
    ensures |keywords| > 0 ==> Min(Difficulties(keywords)) <= r <= Max(Difficulties(keywords))
  {
    RoundedMean(Difficulties(keywords))
  }

  /** When every keyword has the same difficulty, that is the average; a
      keyword without one counts as difficulty 0. */
  lemma AverageOfEqualDifficulties(keywords: seq<Keyword>, d: int)
    requires |keywords| > 0
    requires forall i :: 0 <= i < |keywords| ==> NumOr(keywords[i].difficulty, 0) == d
    ensures AverageDifficulty(keywords) == d
  {
    var ds := Difficulties(keywords);
    assert ds[0] == d;
  }

  /** `issues.filter(issue => issue.severity === 'critical').length`. */
  function CriticalCount(issues: seq<SeoIssue>): (n: nat)
    ensures n <= |issues|
    ensures n == 0 <==> forall i :: 0 <= i < |issues| ==> !IsCritical(issues[i])
    ensures n == |issues| <==> forall i :: 0 <= i < |issues| ==> IsCritical(issues[i])
    // the critical issues and the others together are all the issues
    ensures n + |Filter(issues, (i: SeoIssue) => !IsCritical(i))| == |issues|
  {
    var critical := Filter(issues, IsCritical);
    var others := Filter(issues, (i: SeoIssue) => !IsCritical(i));
    FilterEmptyIff(issues, IsCritical);
    FilterEmptyIff(issues, (i: SeoIssue) => !IsCritical(i));
    FilterDisjointLength(issues, IsCritical, (i: SeoIssue) => !IsCritical(i));
    |critical|
  }

  /** `keywords.filter(k => k.current_rank <= 10).length`, compared the
      JavaScript way: a null rank counts, a missing one does not. */
  function TopTenCount(keywords: seq<Keyword>): (n: nat)
    ensures n <= |keywords|
    ensures n == 0 <==> forall i :: 0 <= i < |keywords| ==> !InTopTen(keywords[i])
    ensures (forall i :: 0 <= i < |keywords| ==> InTopTen(keywords[i])) ==> n == |keywords|
  {
    var top := Filter(keywords, InTopTen);
    FilterEmptyIff(keywords, InTopTen);
    if forall i :: 0 <= i < |keywords| ==> InTopTen(keywords[i]) then
      FilterAll(keywords, InTopTen);
      |top|
    else |top|
  }

  /** Which single ranks count as top ten: every number up to 10, negative
      numbers and 0 included, and null; never a missing rank. */
  lemma InTopTenCases(k: Keyword)
    ensures InTopTen(k) <==> k.current_rank.Null? || (k.current_rank.Present? && k.current_rank.value <= 10)
  {
  }

  /** The counts add up over concatenated lists, so each keyword contributes
      on its own. */
  lemma TopTenCountAppend(a: seq<Keyword>, b: seq<Keyword>)
    ensures TopTenCount(a + b) == TopTenCount(a) + TopTenCount(b)
  {
    FilterAppend(a, b, InTopTen);
  }

  lemma CriticalCountAppend(a: seq<SeoIssue>, b: seq<SeoIssue>)
    ensures CriticalCount(a + b) == CriticalCount(a) + CriticalCount(b)
  {
    FilterAppend(a, b, IsCritical);
  }

  /** Every issue is either critical or not: the critical count and the
      number of other issues add up to the list length. */
  lemma CriticalPartition(issues: seq<SeoIssue>)
    ensures CriticalCount(issues) + |Filter(issues, (i: SeoIssue) => !IsCritical(i))| == |issues|
  {
    FilterDisjointLength(issues, IsCritical, (i: SeoIssue) => !IsCritical(i));
  }
}

=== FILE: recent_analyses.dfy ===
/** The dashboard's list of recent analyses: up to five websites, each with
    its SEO score coloured and labelled in three tiers. The score is the
    stored property, so it may be missing or null. */
module RecentAnalyses {
  import opened Js
  import opened Entities
  import opened Lists

  const Green := "text-green-600 bg-green-50 border-green-200"
  const Yellow := "text-yellow-600 bg-yellow-50 border-yellow-200"
  const Red := "text-red-600 bg-red-50 border-red-200"

  /** `getScoreColor(score)`: a null score compares as 0 and a missing one
      fails both comparisons, so both land in the lowest tier. */
  function ScoreColor(score: Field<int>): (r: string)
    ensures r == Green <==> score.Present? && score.value >= 80
    ensures r == Yellow <==> score.Present? && 60 <= score.value < 80
    ensures r == Red <==> !score.Present? || score.value < 60
  {
    if LooseGe(score, 80) then Green
    else if LooseGe(score, 60) then Yellow
    else Red
  }

  /** `getScoreBgColor(score)`: the badge gradient, on the same thresholds. */
  function ScoreBgColor(score: Field<int>): (r: string)
    ensures r == "from-green-500 to-emerald-600" <==> score.Present? && score.value >= 80
    ensures r == "from-yellow-500 to-orange-500" <==> score.Present? && 60 <= score.value < 80
    ensures r == "from-red-500 to-red-600" <==> !score.Present? || score.value < 60
  {
    if LooseGe(score, 80) then "from-green-500 to-emerald-600"
    else if LooseGe(score, 60) then "from-yellow-500 to-orange-500"
    else "from-red-500 to-red-600"
  }

  /** The badge text. */
  function BadgeLabel(score: Field<int>): (r: string)
    ensures r == "Excellent" <==> score.Present? && score.value >= 80
    ensures r == "Good" <==> score.Present? && 60 <= score.value < 80
    ensures r == "Needs Work" <==> !score.Present? || score.value < 60
  {
    if LooseGe(score, 80) then "Excellent"
    else if LooseGe(score, 60) then "Good"
    else "Needs Work"
  }

  /** The three tier functions pick the same tier for every score. */
  lemma TiersAgree(score: Field<int>)
    ensures ScoreColor(score) == Green <==> ScoreBgColor(score) == "from-green-500 to-emerald-600"
    ensures ScoreColor(score) == Green <==> BadgeLabel(score) == "Excellent"
    ensures ScoreColor(score) == Yellow <==> ScoreBgColor(score) == "from-yellow-500 to-orange-500"
    ensures ScoreColor(score) == Yellow <==> BadgeLabel(score) == "Good"
    ensures ScoreColor(score) == Red <==> BadgeLabel(score) == "Needs Work"
  {
  }

  /** A null score is shown in the lowest tier, like a missing one. */
  lemma NullScoreIsLowest()
    ensures BadgeLabel(Null) == BadgeLabel(Undefined) == BadgeLabel(Present(0)) == "Needs Work"
  {
  }

  /** The card body: three loading placeholders, the empty-state message,
      or one row per shown website. */
  datatype View = Placeholders(count: nat) | EmptyState | Rows(websites: seq<Website>)

  function Render(websites: seq<Website>, isLoading: bool): (v: View)
    ensures isLoading <==> v == Placeholders(3)
    ensures v.EmptyState? <==> !isLoading && |websites| == 0
    // at most five rows: the first websites of the list, in order
    ensures v.Rows? ==> 0 < |v.websites| <= 5 && |v.websites| <= |websites| && v.websites == websites[..|v.websites|]
    ensures v.Rows? ==> |v.websites| == if |websites| < 5 then |websites| else 5
  {
    if isLoading then Placeholders(3)
    else if |websites| == 0 then EmptyState
    else Rows(Take(websites, 5))
  }
}

=== FILE: reports.dfy ===
/** The reports page: a per-website score chart, a pie of issues per
    category, a bar chart of keywords per difficulty band, and summary
    figures. Its lists are loaded as on the dashboard (`Dashboard.LoadData`). */
module Reports {
  import opened Js
  import opened Entities
  import opened Lists
  import opened Tally
  import Metrics

  // ---------------------------------------------------------------------
  // Scores by website

  /** The x-axis label: `site.title?.substring(0, 20) + '...' || `Site N``.
      The concatenation is never empty, so the fallback is never taken, and
      a missing or null title reads `undefined...`. */
  function ChartLabel(title: Field<string>, index: nat): (text: string)
    ensures title.Present? ==> text == title.value[..if |title.value| < 20 then |title.value| else 20] + "..."
    ensures !title.Present? ==> text == "undefined..."
    ensures |text| <= 23 && text[|text| - 3..] == "..."
  {
    var head := if title.Present? then (if |title.value| < 20 then title.value else title.value[..20]) else "undefined";
    var joined := head + "...";
    if joined != "" then joined else "Site " + IntToString(index + 1)
  }

  /** No label is the `Site N` fallback: every label ends in dots, and a
      fallback would end in a digit. */
  lemma ChartLabelNeverFallsBack(title: Field<string>, index: nat)
    ensures ChartLabel(title, index) != "Site " + IntToString(index + 1)
  {
    var text := ChartLabel(title, index);
    var fallback := "Site " + IntToString(index + 1);
    var digits := NatToString(index + 1);
    assert fallback == "Site " + digits;
    assert IsDigit(fallback[|fallback| - 1]);
    assert text[|text| - 1] == '.';
  }

  datatype ScoreRow = ScoreRow(name: string, seo: int, performance: int, accessibility: int, bestPractices: int)

  /** `scoreData`: one row per website, in list order, each score being the
      stored one or 0 when missing, null or zero. */
  function ScoreData(websites: seq<Website>): (rows: seq<ScoreRow>)
    ensures |rows| == |websites|
    ensures forall i :: 0 <= i < |rows| ==>
              && rows[i].name == ChartLabel(websites[i].title, i)
              && rows[i].seo == (if websites[i].seo_score.Present? then websites[i].seo_score.value else 0)
              && rows[i].performance == (if websites[i].performance_score.Present? then websites[i].performance_score.value else 0)
              && rows[i].accessibility == (if websites[i].accessibility_score.Present? then websites[i].accessibility_score.value else 0)
              && rows[i].bestPractices == (if websites[i].best_practices_score.Present? then websites[i].best_practices_score.value else 0)
  {
    seq(|websites|, i requires 0 <= i < |websites| =>
      var w := websites[i];
      ScoreRow(ChartLabel(w.title, i), NumOr(w.seo_score, 0), NumOr(w.performance_score, 0),
               NumOr(w.accessibility_score, 0), NumOr(w.best_practices_score, 0)))
  }

  /** The chart's SEO column averages to the "Avg SEO Score" figure. */
  lemma ScoreDataMatchesAverage(websites: seq<Website>)
    ensures RoundedMean(seq(|websites|, i requires 0 <= i < |websites| => ScoreData(websites)[i].seo))
         == Metrics.AverageSeoScore(websites)
  {
    var rows := ScoreData(websites);
    assert seq(|websites|, i requires 0 <= i < |websites| => rows[i].seo) == Metrics.SeoScores(websites);
  }

  // ---------------------------------------------------------------------
  // Issues by category

  /** The key each issue is counted under: `String(issue.category)`. */
  function CategoryKeys(issues: seq<SeoIssue>): (ks: seq<string>)
    ensures |ks| == |issues|
    ensures forall i :: 0 <= i < |ks| ==> ks[i] == PropertyKey(issues[i].category)
  {
    seq(|issues|, i requires 0 <= i < |issues| => PropertyKey(issues[i].category))
  }

  /** `issuesByCategory`: one entry per distinct key in first-seen order;
      every count is at least 1 and the counts add up to the issues. */
  function IssuesByCategory(issues: seq<SeoIssue>): (r: seq<Entry>)
    ensures DistinctKeys(r) && Positive(r)
    ensures Total(r) == |issues|
    ensures forall k :: CountOf(r, k) == multiset(CategoryKeys(issues))[k]
    ensures forall i :: 0 <= i < |r| ==> r[i].key in CategoryKeys(issues)
    ensures forall i, j :: 0 <= i < j < |r| ==>
              FirstIndex(CategoryKeys(issues), r[i].key) < FirstIndex(CategoryKeys(issues), r[j].key)
  {
    var r := CountBy(CategoryKeys(issues));
    assert forall i :: 0 <= i < |r| ==> r[i].key == Keys(r)[i];
    r
  }

  /** `\w` in a JavaScript regular expression without the `u` flag. */
  predicate IsWordChar(c: char) {
    ('a' <= c <= 'z') || ('A' <= c <= 'Z') || ('0' <= c <= '9') || c == '_'
  }

  /** `toUpperCase` on the characters `\w` matches: only `a`-`z` change. */
  function Upper(c: char): (u: char)
    ensures IsWordChar(u) <==> IsWordChar(c)
    ensures u == '_' <==> c == '_'
    ensures !('a' <= c <= 'z') ==> u == c
    ensures 'a' <= c <= 'z' ==> 'A' <= u <= 'Z' && u as int == c as int - 32
  {
    if 'a' <= c <= 'z' then (c as int - 32) as char else c
  }

  /** `s.replace(/_/g, ' ')`. */
  function Spaced(s: string): (t: string)
    ensures |t| == |s| && '_' !in t
    ensures forall i :: 0 <= i < |s| ==> t[i] == if s[i] == '_' then ' ' else s[i]
  {
    seq(|s|, i requires 0 <= i < |s| => if s[i] == '_' then ' ' else s[i])
  }

  /** `t.replace(/\b\w/g, l => l.toUpperCase())`: every word character
      that follows a non-word character (or starts the string) is upper-cased.
      The global replace tests each boundary against the original string. */
  function Capitalised(t: string): (r: string)
    ensures |r| == |t|
  {
    seq(|t|, i requires 0 <= i < |t| =>
      if IsWordChar(t[i]) && (i == 0 || !IsWordChar(t[i - 1])) then Upper(t[i]) else t[i])
  }

  /** Position `i` of `s` starts a word once underscores are spaces. */
  predicate StartsWord(s: string, i: nat)
    requires i < |s|
  {
    IsWordChar(s[i]) && s[i] != '_' && (i == 0 || !IsWordChar(s[i - 1]) || s[i - 1] == '_')
  }

  /** The category's display name. */
  function DisplayName(s: string): (r: string)
    ensures |r| == |s| && '_' !in r
    // underscores become spaces, word starts are upper-cased, and nothing else changes
    ensures forall i :: 0 <= i < |s| ==>
              r[i] == if s[i] == '_' then ' ' else if StartsWord(s, i) then Upper(s[i]) else s[i]
  {
    var t := Spaced(s);
    var r := Capitalised(t);
    assert forall i :: 0 <= i < |r| ==> r[i] != '_';
    r
  }

  /** Display names are already display names. */
  lemma DisplayNameIdempotent(s: string)
    ensures DisplayName(DisplayName(s)) == DisplayName(s)
  {
    var r := DisplayName(s);
    var rr := DisplayName(r);
    forall i | 0 <= i < |r|
      ensures rr[i] == r[i]
    {
      if StartsWord(r, i) {
        assert StartsWord(s, i);
      }
    }
  }

  /** Two examples: `on_page` reads `On Page`, a missing category reads
      `Undefined`. */
  lemma DisplayNameExamples()
    ensures DisplayName("on_page") == "On Page"
    ensures DisplayName(PropertyKey(Undefined)) == "Undefined"
  {
    var r := DisplayName("on_page");
    assert r[0] == 'O' && r[1] == 'n' && r[2] == ' ' && r[3] == 'P';
    var u := DisplayName("undefined");
    assert u[0] == 'U';
  }

  datatype Slice = Slice(name: string, value: nat)

  /** `issuesChartData`: one slice per category entry, named for display. */
  function IssuesChartData(issues: seq<SeoIssue>): (r: seq<Slice>)
    ensures |r| == |IssuesByCategory(issues)|
    ensures forall i :: 0 <= i < |r| ==>
              r[i].name == DisplayName(IssuesByCategory(issues)[i].key)
              && r[i].value == IssuesByCategory(issues)[i].count >= 1
  {
    var es := IssuesByCategory(issues);
    seq(|es|, i requires 0 <= i < |es| => Slice(DisplayName(es[i].key), es[i].count))
  }

  /** `on_page` and `on page` are counted apart but drawn under one name. */
  lemma SpacedAndUnderscoredShareAName()
    ensures "on_page" != "on page"
    ensures DisplayName("on_page") == DisplayName("on page")
  {
    var a := DisplayName("on_page");
    var b := DisplayName("on page");
    assert a[0] == b[0] && a[1] == b[1] && a[2] == b[2] && a[3] == b[3];
    assert a[4] == b[4] && a[5] == b[5] && a[6] == b[6];
  }

  const Colors: seq<string> := ["#3B82F6", "#10B981", "#F59E0B", "#EF4444", "#8B5CF6"]

  /** `COLORS[index % COLORS.length]` for the issues pie. */
  function SliceColor(index: nat): (c: string)
    ensures c in Colors && c == Colors[index % 5]
  {
    Colors[index % |Colors|]
  }

  /** Neighbouring slices never share a colour. */
  lemma SliceColorsDiffer(index: nat)
    ensures SliceColor(index) != SliceColor(index + 1)
    ensures SliceColor(index) == SliceColor(index + 5)
  {
    assert (index + 1) % 5 == (index % 5 + 1) % 5;
  }

  // ---------------------------------------------------------------------
  // Keywords by difficulty

  const Easy := "Easy (0-25)"
  const Medium := "Medium (26-50)"
  const Hard := "Hard (51-75)"
  const VeryHard := "Very Hard (76-100)"

  /** The band names in ascending order of difficulty. */
  const Bands: seq<string> := [Easy, Medium, Hard, VeryHard]

  /** The band a keyword's difficulty falls in, a missing, null or zero
      difficulty counting as 0. */
  function Band(difficulty: Field<int>): (band: string)
    ensures band in Bands
    ensures var d := if difficulty.Present? then difficulty.value else 0;
            && (band == Easy <==> d <= 25)
            && (band == Medium <==> 25 < d <= 50)
            && (band == Hard <==> 50 < d <= 75)
            && (band == VeryHard <==> 75 < d)
  {
    var d := NumOr(difficulty, 0);
    if d <= 25 then Easy
    else if d <= 50 then Medium
    else if d <= 75 then Hard
    else VeryHard
  }

  /** The position of a band in `Bands`. */
  function BandIndex(band: string): (i: nat)
    requires band in Bands
    ensures i < 4 && Bands[i] == band
  {
    if band == Easy then 0 else if band == Medium then 1 else if band == Hard then 2 else 3
  }

  /** A harder keyword never lands in an easier band. */
  lemma BandMonotone(a: int, b: int)
    requires a <= b
    ensures BandIndex(Band(Present(a))) <= BandIndex(Band(Present(b)))
  {
  }

  /** A missing, null or zero difficulty is easy. */
  lemma MissingDifficultyIsEasy()
    ensures Band(Undefined) == Band(Null) == Band(Present(0)) == Easy
  {
  }

  function BandsOf(keywords: seq<Keyword>): (bs: seq<string>)
    ensures |bs| == |keywords|
    ensures forall i :: 0 <= i < |bs| ==> bs[i] == Band(keywords[i].difficulty)
  {
    seq(|keywords|, i requires 0 <= i < |keywords| => Band(keywords[i].difficulty))
  }

  /** `keywordDifficultyData`: at most the four bands, each keyword counted
      in exactly one, bands in the order they first occur. */
  function KeywordDifficultyData(keywords: seq<Keyword>): (r: seq<Entry>)
    ensures DistinctKeys(r) && Positive(r)
    ensures Total(r) == |keywords|
    ensures |r| <= 4
    ensures forall i :: 0 <= i < |r| ==> r[i].key in Bands
    ensures forall k :: CountOf(r, k) == multiset(BandsOf(keywords))[k]
    ensures forall k :: k in Keys(r) <==> k in BandsOf(keywords)
    ensures forall i :: 0 <= i < |r| ==> r[i].key in BandsOf(keywords)
    ensures forall i, j :: 0 <= i < j < |r| ==>
              FirstIndex(BandsOf(keywords), r[i].key) < FirstIndex(BandsOf(keywords), r[j].key)
  {
    var r := CountBy(BandsOf(keywords));
    CountByKeysInBands(keywords);
    DistinctKeysBound(r, set b | b in Bands);
    BandSetSize();
    r
  }

  /** Every key of the band count occurs among the keywords' bands, and so
      is one of the four bands. */
  lemma CountByKeysInBands(keywords: seq<Keyword>)
    ensures forall i :: 0 <= i < |CountBy(BandsOf(keywords))| ==>
              CountBy(BandsOf(keywords))[i].key in BandsOf(keywords)
              && CountBy(BandsOf(keywords))[i].key in Bands
  {
    var bs := BandsOf(keywords);
    var r := CountBy(bs);
    BandsOfInBands(keywords);
    forall i | 0 <= i < |r|
      ensures r[i].key in bs && r[i].key in Bands
    {
      assert Keys(r)[i] == r[i].key;
    }
  }

  lemma BandsOfInBands(keywords: seq<Keyword>)
    ensures forall k :: k in BandsOf(keywords) ==> k in Bands
  {
    var bs := BandsOf(keywords);
    forall k | k in bs
      ensures k in Bands
    {
      var j :| 0 <= j < |bs| && bs[j] == k;
    }
  }

  lemma BandSetSize()
    ensures |set b | b in Bands| == 4
  {
    assert (set b | b in Bands) == {Easy, Medium, Hard, VeryHard};
  }

  datatype Bar = Bar(name: string, keywords: nat)

  /** `difficultyChartData`: one bar per band that has keywords, in the
      order of the entries. */
  function DifficultyChartData(keywords: seq<Keyword>): (r: seq<Bar>)
    ensures |r| == |KeywordDifficultyData(keywords)| <= 4
    ensures forall i :: 0 <= i < |r| ==>
              r[i].name == KeywordDifficultyData(keywords)[i].key
              && r[i].keywords == KeywordDifficultyData(keywords)[i].count
    ensures forall i :: 0 <= i < |r| ==> r[i].name in Bands && r[i].keywords >= 1
    ensures forall i :: 0 <= i < |r| ==>
              r[i].keywords == multiset(BandsOf(keywords))[r[i].name]
    // no band gets two bars, and every band that has keywords gets one
    ensures forall i, j :: 0 <= i < j < |r| ==> r[i].name != r[j].name
    ensures forall k :: k in BandsOf(keywords) ==> exists i :: 0 <= i < |r| && r[i].name == k
  {
    var es := KeywordDifficultyData(keywords);
    EntryCountsAreBandCounts(keywords);
    EveryBandHasEntry(keywords);
    seq(|es|, i requires 0 <= i < |es| => Bar(es[i].key, es[i].count))
  }

  lemma EntryCountsAreBandCounts(keywords: seq<Keyword>)
    ensures var es := KeywordDifficultyData(keywords);
            forall i :: 0 <= i < |es| ==> es[i].count == multiset(BandsOf(keywords))[es[i].key]
  {
    var es := KeywordDifficultyData(keywords);
    forall i | 0 <= i < |es|
      ensures es[i].count == multiset(BandsOf(keywords))[es[i].key]
    {
      CountOfEntry(es, i);
    }
  }

  lemma EveryBandHasEntry(keywords: seq<Keyword>)
    ensures var es := KeywordDifficultyData(keywords);
            forall k :: k in BandsOf(keywords) ==> exists i :: 0 <= i < |es| && es[i].key == k
  {
    var es := KeywordDifficultyData(keywords);
    forall k | k in BandsOf(keywords)
      ensures exists i :: 0 <= i < |es| && es[i].key == k
    {
      var i :| 0 <= i < |es| && Keys(es)[i] == k;
    }
  }

  // ---------------------------------------------------------------------
  // Summary figures

  datatype Summary = Summary(websites: nat, keywords: nat, issues: nat, averageSeo: int)

  function SummaryOf(websites: seq<Website>, keywords: seq<Keyword>, issues: seq<SeoIssue>): (s: Summary)
    ensures s.websites == |websites| && s.keywords == |keywords| && s.issues == |issues|
    ensures s.averageSeo == Metrics.AverageSeoScore(websites)
  {
    Summary(|websites|, |keywords|, |issues|, Metrics.AverageSeoScore(websites))
  }
}

=== FILE: score_card.dfy ===
/** The score card of the analysis page: a colour theme chosen by name, a
    score coloured in three tiers and labelled in four. */
module ScoreCard {
  import opened Js

  /** A theme's three classes: the gradient's two stops and the text class. */
  datatype Classes = Classes(from: string, to: string, text: string)

  /** The four themes the table defines. */
  datatype Hue = Blue | Green | Purple | Orange

  /** The table's keys. */
  function HueNamed(name: string): Option<Hue> {
    match name
    case "blue" => Some(Blue)
    case "green" => Some(Green)
    case "purple" => Some(Purple)
    case "orange" => Some(Orange)
    case _ => None
  }

  /** The table's values, in structured form. */
  function HueClasses(h: Hue): (c: Classes)
    ensures ' ' !in c.from && ' ' !in c.to && ' ' !in c.text
  {
    match h
    case Blue => NoSpaces("from-blue-500", "to-blue-600", "text-blue-600")
    case Green => NoSpaces("from-green-500", "to-emerald-600", "text-green-600")
    case Purple => NoSpaces("from-purple-500", "to-purple-600", "text-purple-600")
    case Orange => NoSpaces("from-orange-500", "to-orange-600", "text-orange-600")
  }

  /** A theme's classes, checked to hold no space. */
  function NoSpaces(from: string, to: string, text: string): (c: Classes)
    requires ' ' !in from && ' ' !in to && ' ' !in text
    ensures c == Classes(from, to, text)
  {
    Classes(from, to, text)
  }

  /** The theme a name selects in the table, if any. */
  function Theme(name: string): (t: Option<Classes>)
    ensures t.Some? <==> name == "blue" || name == "green" || name == "purple" || name == "orange"
    ensures t.Some? ==> ' ' !in t.value.from && ' ' !in t.value.to && ' ' !in t.value.text
    ensures name == "blue" ==> t == Some(Classes("from-blue-500", "to-blue-600", "text-blue-600"))
  {
    match HueNamed(name)
    case Some(h) => Some(HueClasses(h))
    case None => None
  }

  /** The theme a `color` prop selects: `"blue"` when the prop is not
      passed, and blue again for any name the table does not define. */
  function Selected(color: Field<string>): (c: Classes)
    ensures color.Undefined? ==> Some(c) == Theme("blue")
    ensures color.Present? && Theme(color.value).Some? ==> c == Theme(color.value).value
    ensures !(color.Present? && Theme(color.value).Some?) ==> Some(c) == Theme("blue")
    ensures ' ' !in c.from && ' ' !in c.to && ' ' !in c.text
  {
    var name := if color.Undefined? then "blue" else PropertyKey(color);
    match HueNamed(name)
    case Some(h) => HueClasses(h)
    case None => HueClasses(Blue)
  }

  /** `getColorClasses(color)`: `colors[color] || colors.blue`. The table
      holds one string per theme, its three classes separated by single
      spaces, so splitting it at spaces gives the classes back. */
  function ColorClasses(color: Field<string>): (r: string)
    ensures var c := Selected(color); Split(r, ' ') == [c.from, c.to, c.text]
  {
    var c := Selected(color);
    JoinThree(c.from, c.to, c.text);
    SplitJoin([c.from, c.to, c.text], ' ');
    c.from + " " + c.to + " " + c.text
  }

  lemma JoinThree(a: string, b: string, c: string)
    ensures Join([a, b, c], ' ') == a + " " + b + " " + c
  {
    assert [a, b, c][1..] == [b, c];
    assert [b, c][1..] == [c];
    assert Join([b, c], ' ') == b + [' '] + c;
    assert Join([a, b, c], ' ') == a + [' '] + (b + [' '] + c);
  }

  /** The classes split at spaces. */
  function Tokens(color: Field<string>): (parts: seq<string>)
    ensures var c := Selected(color); parts == [c.from, c.to, c.text]
  {
    Split(ColorClasses(color), ' ')
  }

  /** Tokens 0 and 1 rejoined: the gradient stops. */
  function GradientClass(color: Field<string>): (r: string)
    ensures r == Selected(color).from + " " + Selected(color).to
  {
    var parts := Tokens(color);
    parts[0] + " " + parts[1]
  }

  /** Token 2: the text class. */
  function TextClass(color: Field<string>): (r: string)
    ensures r == Selected(color).text
  {
    Tokens(color)[2]
  }

  /** A name outside the table looks exactly like the default theme. */
  lemma UnknownColorIsBlue(name: string)
    requires Theme(name).None?
    ensures ColorClasses(Present(name)) == ColorClasses(Undefined)
    ensures GradientClass(Present(name)) == "from-blue-500 to-blue-600"
    ensures TextClass(Present(name)) == "text-blue-600"
  {
  }

  /** A null colour is looked up under the key `"null"`, which the table
      does not define. */
  lemma NullColorIsBlue()
    ensures ColorClasses(Null) == ColorClasses(Undefined)
  {
  }

  /** `getScoreColor(score)`. */
  function ScoreColor(score: int): (r: string)
    ensures r == "text-green-600" <==> score >= 80
    ensures r == "text-yellow-600" <==> 60 <= score < 80
    ensures r == "text-red-600" <==> score < 60
  {
    if score >= 80 then "text-green-600"
    else if score >= 60 then "text-yellow-600"
    else "text-red-600"
  }

  /** The label under the score. */
  function Label(score: int): (r: string)
    ensures r == "Excellent" <==> score >= 80
    ensures r == "Good" <==> 60 <= score < 80
    ensures r == "Needs Improvement" <==> 40 <= score < 60
    ensures r == "Poor" <==> score < 40
  {
    if score >= 80 then "Excellent"
    else if score >= 60 then "Good"
    else if score >= 40 then "Needs Improvement"
    else "Poor"
  }

  /** The colour and the label agree: green exactly for "Excellent", yellow
      exactly for "Good", and red for the two lower labels. */
  lemma ColorMatchesLabel(score: int)
    ensures ScoreColor(score) == "text-green-600" <==> Label(score) == "Excellent"
    ensures ScoreColor(score) == "text-yellow-600" <==> Label(score) == "Good"
    ensures ScoreColor(score) == "text-red-600" <==>
              Label(score) == "Needs Improvement" || Label(score) == "Poor"
  {
  }

  /** Both tier functions only ever move up with the score. */
  lemma TiersMonotone(a: int, b: int)
    requires a <= b
    ensures Label(a) == "Excellent" ==> Label(b) == "Excellent"
    ensures ScoreColor(b) == "text-red-600" ==> ScoreColor(a) == "text-red-600"
  {
  }
}

=== FILE: stats_overview.dfy ===
/** One statistic card of the dashboard: a value, a change caption, and a
    trend shown as an icon and a caption colour. */
module StatsOverview {
  import opened Js
  import opened KeywordCells

  const DefaultGradient := "from-blue-500 to-blue-600"

  /** The `trend` prop after its default: `"stable"` when it is not passed.
      A null prop is passed, so the default does not apply to it. */
  function EffectiveTrend(trend: Field<string>): (t: Field<string>)
    ensures trend.Undefined? ==> t == Present("stable")
    ensures !trend.Undefined? ==> t == trend
  {
    if trend.Undefined? then Present("stable") else trend
  }

  /** The `bgGradient` prop after its default, as interpolated into the
      class list (a null prop renders as `"null"`). */
  function Gradient(bgGradient: Field<string>): (g: string)
    ensures bgGradient.Undefined? ==> g == DefaultGradient
    ensures bgGradient.Present? ==> g == bgGradient.value
    ensures bgGradient.Null? ==> g == "null"
    ensures !bgGradient.Undefined? ==> g == PropertyKey(bgGradient)
  {
    if bgGradient.Undefined? then DefaultGradient else PropertyKey(bgGradient)
  }

  /** `getTrendIcon()` on the defaulted trend. */
  function Icon(trend: Field<string>): (i: KeywordCells.Icon)
    ensures i == TrendingUp <==> trend == Present("up")
    ensures i == TrendingDown <==> trend == Present("down")
    ensures trend.Undefined? ==> i == Minus
  {
    TrendIcon(EffectiveTrend(trend))
  }

  /** `getTrendColor()` on the defaulted trend. */
  function Color(trend: Field<string>): (c: string)
    ensures c == "text-green-600" <==> trend == Present("up")
    ensures c == "text-red-600" <==> trend == Present("down")
    ensures c == "text-slate-500" <==> !(trend == Present("up") || trend == Present("down"))
  {
    match EffectiveTrend(trend)
    case Present("up") => "text-green-600"
    case Present("down") => "text-red-600"
    case _ => "text-slate-500"
  }

  /** The icon and the caption colour always tell the same story. */
  lemma IconMatchesColor(trend: Field<string>)
    ensures Icon(trend) == TrendingUp <==> Color(trend) == "text-green-600"
    ensures Icon(trend) == TrendingDown <==> Color(trend) == "text-red-600"
    ensures Icon(trend) == Minus <==> Color(trend) == "text-slate-500"
  {
  }

  /** What one card shows. */
  datatype Card = Card(title: string, value: string, change: string, icon: KeywordCells.Icon,
                       changeColor: string, gradient: string)

  function Render(title: string, value: string, change: string, trend: Field<string>,
                  bgGradient: Field<string>): (c: Card)
    ensures c.title == title && c.value == value && c.change == change
    ensures c.icon == Icon(trend) && c.changeColor == Color(trend) && c.gradient == Gradient(bgGradient)
    // a card whose trend is not passed shows the stable icon in slate
    ensures trend.Undefined? ==> c.icon == Minus && c.changeColor == "text-slate-500"
    ensures bgGradient.Undefined? ==> c.gradient == DefaultGradient
  {
    Card(title, value, change, Icon(trend), Color(trend), Gradient(bgGradient))
  }
}

=== FILE: store.dfy ===
/** The loop `for (const x of xs) { await Entity.create(x); }` against the
    entity store. Writes happen one at a time in list order; the first write
    that throws ends the loop, and the writes before it stay (there is no
    rollback). Which write fails, if any, is a parameter: `failAt` is the
    position of the first write that throws. */
module Store {
  import opened Js

  datatype Batch<T> = Batch(written: seq<T>, completed: bool)

  function WriteInOrder<T>(items: seq<T>, failAt: Option<nat>): (b: Batch<T>)
    ensures b.completed <==> (failAt.None? || failAt.value >= |items|)
    ensures b.completed ==> b.written == items
    ensures !b.completed ==> b.written == items[..failAt.value]
  {
    if |items| == 0 then Batch([], true)
    else if failAt == Some(0) then Batch([], false)
    else
      var next := if failAt.Some? then Some(failAt.value - 1) else None;
      var rest := WriteInOrder(items[1..], next);
      assert !rest.completed ==> [items[0]] + rest.written == items[..failAt.value];
      Batch([items[0]] + rest.written, rest.completed)
  }
}

=== FILE: tally.dfy ===
/** Counting with a plain object, as in
    `xs.reduce((acc, x) => { acc[key(x)] = (acc[key(x)] || 0) + 1; return acc; }, {})`
    followed by `Object.entries(acc)`. The object is modelled as its entry
    list: keys are strings that are not array indices, so entries come out
    in the order their keys were first inserted. */
module Tally {

  /** An object property: the key (always a string) and its count. */
  datatype Entry = Entry(key: string, count: nat)

  function Keys(es: seq<Entry>): (ks: seq<string>)
    ensures |ks| == |es|
    ensures forall i :: 0 <= i < |es| ==> ks[i] == es[i].key
  {
    seq(|es|, i requires 0 <= i < |es| => es[i].key)
  }

  /** The sum of all counts. */
  function Total(es: seq<Entry>): nat {
    if |es| == 0 then 0 else es[0].count + Total(es[1..])
  }

  /** The count recorded for `k` (summed over every entry with that key). */
  function CountOf(es: seq<Entry>, k: string): nat {
    if |es| == 0 then 0 else (if es[0].key == k then es[0].count else 0) + CountOf(es[1..], k)
  }

  predicate DistinctKeys(es: seq<Entry>) {
    forall i, j :: 0 <= i < j < |es| ==> es[i].key != es[j].key
  }

  predicate Positive(es: seq<Entry>) {
    forall i :: 0 <= i < |es| ==> es[i].count >= 1
  }

  /** The position of the first occurrence of `k` in `s`. */
  function FirstIndex(s: seq<string>, k: string): (i: nat)
    requires k in s
    ensures i < |s| && s[i] == k && k !in s[..i]
  {
    if s[0] == k then 0
    else
      var j := FirstIndex(s[1..], k);
      assert s[..j + 1] == [s[0]] + s[1..][..j];
      j + 1
  }

  lemma {:induction false} FirstIndexAppend(s: seq<string>, y: string, k: string)
    requires k in s + [y]
    ensures k in s ==> FirstIndex(s + [y], k) == FirstIndex(s, k)
    ensures k !in s ==> FirstIndex(s + [y], k) == |s|
  {
    if |s| > 0 && s[0] != k {
      assert (s + [y])[1..] == s[1..] + [y];
      FirstIndexAppend(s[1..], y, k);
    }
  }

  /** One step of the reducer: `acc[k] = (acc[k] || 0) + 1`. An existing key
      keeps its place and gains one; a new key is appended with count 1. */
  function Bump(es: seq<Entry>, k: string): (r: seq<Entry>)
    ensures k in Keys(es) ==> Keys(r) == Keys(es)
    ensures k !in Keys(es) ==> Keys(r) == Keys(es) + [k]
  {
    if |es| == 0 then [Entry(k, 1)]
    else if es[0].key == k then
      var r := [Entry(k, es[0].count + 1)] + es[1..];
      KeysCons(es[0], es[1..]);
      KeysCons(Entry(k, es[0].count + 1), es[1..]);
      r
    else
      var rest := Bump(es[1..], k);
      KeysCons(es[0], es[1..]);
      KeysCons(es[0], rest);
      [es[0]] + rest
  }

  lemma KeysCons(e: Entry, es: seq<Entry>)
    ensures Keys([e] + es) == [e.key] + Keys(es)
  {
  }

  /** A step raises only `k`'s count, by one, so the total rises by one. */
  lemma {:induction false} BumpCounts(es: seq<Entry>, k: string)
    ensures forall x :: CountOf(Bump(es, k), x) == CountOf(es, x) + (if x == k then 1 else 0)
    ensures Total(Bump(es, k)) == Total(es) + 1
    ensures Positive(es) ==> Positive(Bump(es, k))
  {
    var r := Bump(es, k);
    if |es| == 0 {
      assert r[1..] == [];
    } else if es[0].key == k {
      assert r[1..] == es[1..];
    } else {
      BumpCounts(es[1..], k);
      assert r[1..] == Bump(es[1..], k);
      assert r[0] == es[0];
    }
  }

  /** The whole reduction over the list of keys. */
  function CountBy(keys: seq<string>): (r: seq<Entry>)
    // one entry per distinct key, every key of the input present
    ensures DistinctKeys(r)
    ensures forall k :: k in Keys(r) <==> k in keys
    // each entry counts the occurrences of its key, so no count is zero
    ensures forall k :: CountOf(r, k) == multiset(keys)[k]
    ensures Positive(r)
    // the counts add up to the number of inputs
    ensures Total(r) == |keys|
    // entries are in the order their keys first occur in the input
    ensures forall i, j :: 0 <= i < j < |r| ==>
              FirstIndex(keys, r[i].key) < FirstIndex(keys, r[j].key)
  {
    if |keys| == 0 then []
    else
      var init := keys[..|keys| - 1];
      var k := keys[|keys| - 1];
      assert keys == init + [k];
      var prev := CountBy(init);
      var r := Bump(prev, k);
      BumpCounts(prev, k);
      FirstSeenOrder(init, k, prev, r);
      r
  }

  lemma FirstSeenOrder(init: seq<string>, k: string, prev: seq<Entry>, r: seq<Entry>)
    requires DistinctKeys(prev)
    requires forall x :: x in Keys(prev) <==> x in init
    requires forall i, j :: 0 <= i < j < |prev| ==>
               FirstIndex(init, prev[i].key) < FirstIndex(init, prev[j].key)
    requires k in Keys(prev) ==> Keys(r) == Keys(prev)
    requires k !in Keys(prev) ==> Keys(r) == Keys(prev) + [k]
    ensures DistinctKeys(r)
    ensures forall x :: x in Keys(r) <==> x in init + [k]
    ensures forall i, j :: 0 <= i < j < |r| ==>
              FirstIndex(init + [k], r[i].key) < FirstIndex(init + [k], r[j].key)
  {
    var keys := init + [k];
    assert forall i :: 0 <= i < |r| ==> r[i].key == Keys(r)[i];
    forall x | x in keys
      ensures x in Keys(r)
    {
      if x != k {
        assert x in init;
      }
    }
    forall i | 0 <= i < |r|
      ensures r[i].key in keys
      ensures FirstIndex(keys, r[i].key) == (if i < |prev| then FirstIndex(init, prev[i].key) else |init|)
    {
      if i < |prev| {
        assert r[i].key == prev[i].key;
        assert prev[i].key in Keys(prev);
        FirstIndexAppend(init, k, r[i].key);
      } else {
        assert r[i].key == k;
        FirstIndexAppend(init, k, k);
      }
    }
    forall i | 0 <= i < |prev|
      ensures FirstIndex(init, prev[i].key) < |init|
    {
      assert prev[i].key in Keys(prev);
    }
  }

  /** With distinct keys, an entry's count is the key's `CountOf`, and a key
      that is not listed counts zero. */
  lemma {:induction false} CountOfEntry(es: seq<Entry>, i: nat)
    requires DistinctKeys(es) && i < |es|
    ensures CountOf(es, es[i].key) == es[i].count
  {
    if i == 0 {
      CountOfAbsent(es[1..], es[0].key);
    } else {
      CountOfEntry(es[1..], i - 1);
    }
  }

  lemma {:induction false} CountOfAbsent(es: seq<Entry>, k: string)
    requires k !in Keys(es)
    ensures CountOf(es, k) == 0
  {
    if |es| > 0 {
      assert Keys(es[1..]) == Keys(es)[1..];
      CountOfAbsent(es[1..], k);
    }
  }

  /** Entries with distinct keys drawn from a set are no more numerous than
      the set. */
  lemma {:induction false} DistinctKeysBound(es: seq<Entry>, allowed: set<string>)
    requires DistinctKeys(es)
    requires forall i :: 0 <= i < |es| ==> es[i].key in allowed
    ensures |es| <= |allowed|
  {
    if |es| > 0 {
      var rest := es[1..];
      assert forall i :: 0 <= i < |rest| ==> rest[i].key == es[i + 1].key;
      DistinctKeysBound(rest, allowed - {es[0].key});
    }
  }

  /** What an entry of `CountBy` holds: its key occurs in the input, and its
      count is the number of occurrences of that key. */
  lemma CountByEntry(keys: seq<string>, i: nat)
    requires i < |CountBy(keys)|
    ensures CountBy(keys)[i].key in keys
    ensures CountBy(keys)[i].count == multiset(keys)[CountBy(keys)[i].key]
  {
    var r := CountBy(keys);
    CountOfEntry(r, i);
    assert r[i].key in Keys(r);
  }
}
